=== FILE: README.md ===
# Glass window decoration: geometry and button logic in Dafny

This project models the deterministic core of the Glass window-decoration theme:
- the border engine: border size per preset, drawn borders, resize-only margins, button size, caption height;
- the title-bar rectangle and the title-bar and window outlines, kept as shape tags;
- the shadow-parameter lookup;
- the decoration's opacity and active-state animation updates;
- the layout of the left and right button groups;
- the caption rectangle and its alignment, with the CenterFullWidth fallback;
- the button-side decision tables: visibility at creation, preferred size, background and foreground colours, hover animation.

Everything is a pure function over value types. Host queries become parameters:
- window flags: maximized, screen edges, hidden title bar, no borders;
- spacings, grid unit, font height, caption text width;
- the `Metrics::*` constants.

The framework's `snapToPixelGrid(value, scale)` and `pixelSize(scale)` are opaque functions, carried in a `PixelGrid` record.

Modules:
- `Geometry`: rectangles, sizes, margins, and the C++ double-to-int conversion (`Trunc`, toward zero).
- `Settings`: presets, host and theme settings, window state.
- `Borders`, `CaptionMetrics`, `TitleBar`, `Shapes`, `Shadow`, `DecorationState`: parts of `kdecoration/glassdecoration.cpp`. `CaptionMetrics` holds `buttonSize` and `captionHeight`, which the borders and the caption both read.
- `Animations`: the direction and running state of an animation.
- `Buttons`: `kdecoration/glassbutton.cpp`.
- `ButtonLayout`: `updateButtonsGeometry`.
- `Caption`: `captionRect`.
- `Scenarios`: worked examples at scale 1.

Behaviour of the code that is easy to misread, modelled as written:
- **Unrecognised border preset.** It falls into the `BorderTiny` branch, because `default:` labels the Tiny case. It does not fall back to Large.
- **Vertical offset.** It is added to a button's height when the window *is* at the top edge (glassdecoration.cpp:472). The group's vertical padding is zero exactly then (line 490). Together, a button's content starts at the same height either way (`ButtonContentTopIsFixed`).
- **Icon size.** It is stored as (height, width) of the button rectangle (line 481). At the top edge this is not square even for a square button.
- **Right-edge flag.** The widened right-edge button is flagged `FlagFirstInList` (line 524).
- **Title-bar corners.** The rounded title-bar rectangle is pushed out by the corner radius on the sides that *touch* a screen edge, and always at the bottom. The clip then cuts those corners away, so a top corner shows rounded only away from the screen edges.
- **Integer conversions.** The full-width caption rectangle is a `QRect`, so its y and width are converted to int (line 626). The title rectangle is built from a `QSize`, so its width and height are converted too (line 273).

## Model

| member | source | states |
|---|---|---|
| Borders.PresetBorderSize | kdecoration/glassdecoration.cpp:344-363 | None draws nothing. NoSides draws no sides and a bottom of snap(max(4, base)). Tiny and any unrecognised preset draw base on the sides and snap(max(4, base)) at the bottom. Normal…Oversized draw 2, 3, 4, 5, 6 and 10 times base on every side. |
| Borders.BorderSize | kdecoration/glassdecoration.cpp:338-389 | base = max(pixelSize, snap(smallSpacing)). The theme's preset decides only when theme settings exist and their mask contains BorderSize; otherwise the framework's preset goes through the same table. |
| Borders.SideBordersMonotone | kdecoration/glassdecoration.cpp:344-363 | For a non-negative base, side borders are non-negative and never shrink along None < NoSides < … < Oversized. |
| Borders.BorderSizeNonNegative | kdecoration/glassdecoration.cpp:340-351 | With a non-negative pixel size and a snap that keeps lengths non-negative, every border size is non-negative. |
| CaptionMetrics.ButtonSize | kdecoration/glassdecoration.cpp:568-584 | On a grid unit g ≥ 0: Tiny g, Small ⌊1.5g⌋, Default and unrecognised 2g, Large ⌊2.5g⌋, VeryLarge ⌊3.5g⌋. A negative g truncates toward zero. |
| CaptionMetrics.ButtonSizeMonotone | kdecoration/glassdecoration.cpp:570-583 | On g ≥ 0 every preset gives at least g, and a larger preset never gives a smaller button. |
| CaptionMetrics.CaptionHeight | kdecoration/glassdecoration.cpp:587-590 | Equals the button size when the title bar shows. Otherwise it is the top border cut to a whole number, at most 1 below it. |
| Borders.HiddenCaptionHeightIsBottomBorder | kdecoration/glassdecoration.cpp:587-590 | With a hidden title bar, the caption height is the bottom border cut to int, since the top border then equals the bottom one. |
| Borders.RecalculateBorders | kdecoration/glassdecoration.cpp:406-446 | left == right. A hidden title bar gives top == bottom; otherwise top = snap(max(fontHeight, buttonSize)) + snap(2·smallSpacing·BottomMargin). Resize margins: top is 0, left == right. The sides get snap(largeSpacing) iff some border is absent and the window is not maximized horizontally; the bottom gets it iff no border is drawn and the window is not maximized vertically. |
| Borders.BordersNonNegative | kdecoration/glassdecoration.cpp:413-445 | With non-negative spacings, font height, margin and pixel size, and a sign-keeping snap, every drawn border and every resize margin is non-negative. |
| Borders.DecorationEnclosesWindow | kdecoration/glassdecoration.cpp:406-429 | With the computed borders, the decoration is the window widened by one side border on each side, and never narrower than the window. |
| TitleBar.UpdateTitleBar | kdecoration/glassdecoration.cpp:311-321 | Maximized: x = 0 and the window's full width. Maximized or at the top edge: y = 0 and height = borderTop. Otherwise the rectangle is inset by the side and top margins. In every case it is symmetric about window()->width()/2 in decoration coordinates, which is borderLeft short of the window's centre, and its bottom is borderTop. |
| TitleBar.TitleBarInsideTopBand | kdecoration/glassdecoration.cpp:315-320 | With non-negative insets that fit, the title bar lies within the rectangle at the decoration's origin that is window()->width() wide and borderTop high. |
| Shapes.TitleRect | kdecoration/glassdecoration.cpp:273 | The title rectangle starts at the origin. Its width and height are whole numbers: the decoration's width (window plus side borders) and the top border, each truncated toward zero, so within one pixel below a non-negative value and one pixel above a negative one. |
| Shapes.TitleRectCoversTitleBar | kdecoration/glassdecoration.cpp:273-321 | With non-negative borders and margins, the title rectangle ends where the title bar ends, up to the int conversion, and reaches to within a pixel of the title bar's right end. |
| Shapes.TitleBarShape | kdecoration/glassdecoration.cpp:275-294 | Plain title rectangle iff maximized or no alpha channel. The title rectangle rounded by the corner radius iff shaded with alpha and not maximized. Otherwise a rounded rectangle with that radius that encloses the title rectangle, clipped to it. |
| Shapes.CalculateShapes | kdecoration/glassdecoration.cpp:266-308 | A shaded window's shape equals the title bar's. The title bar is recomputed unless only the window shape is asked for on an unshaded window, which keeps the previous one. An unshaded window is a rectangle over the decoration's full size (window plus borders), rounded by the theme's corner radius iff alpha is supported and it is not maximized, else plain. |
| Shapes.ClippedTitleBarCorners | kdecoration/glassdecoration.cpp:281-293 | On an unshaded, unmaximized window with alpha and a positive radius, the bottom corners are always clipped. A top corner stays rounded iff neither screen edge meeting there is adjacent. |
| Shapes.ShadedWindowIsRoundedTitle | kdecoration/glassdecoration.cpp:278-306 | A shaded, unmaximized window with alpha is one rounded rectangle the size of the title rectangle. |
| Shadow.IsNone | kdecoration/glassdecoration.cpp:87-90 | True iff neither radius is positive and at least one is zero, which is what "max of the radii is 0" means. |
| Shadow.LookupShadowParams | kdecoration/glassdecoration.cpp:110-127 | Each recognised size gets its table row; an unrecognised size gets the Large row. Only the None size yields no shadow. |
| Shadow.ShadowGrowsWithSize | kdecoration/glassdecoration.cpp:97-108 | A larger size gives both shadows a strictly larger radius and a larger offset. |
| DecorationState.SetOpacity | kdecoration/glassdecoration.cpp:153-159 | Afterwards the opacity is the new value. A repaint is requested iff the value changed. |
| DecorationState.SetOpacitySettles | kdecoration/glassdecoration.cpp:155-157 | Setting the same opacity twice: the second call changes nothing and requests no repaint. |
| DecorationState.UpdateDecorationAnimation | kdecoration/glassdecoration.cpp:324-335 | With animations on, the animation runs, forward iff the window is active, with no direct repaint. With them off, the animation is untouched and a repaint is requested. |
| DecorationState.UpdateDecorationAnimationSettles | kdecoration/glassdecoration.cpp:324-335 | A repeated active-state notification leaves the result unchanged: the same animation, and a repaint again exactly when animations are off. |
| Animations.Drive | kdecoration/glassdecoration.cpp:328-330 | After setDirection(d) and start-unless-running, the animation runs in direction d. One that was already running is only turned to d and is not started again. |
| ButtonLayout.SizeButton | kdecoration/glassdecoration.cpp:469-482 | Only the geometry, padding, offset and icon size change. The geometry is the preferred size cut to int, grown by the vertical offset. The offset becomes the top padding and the offset point. The icon size is the geometry's height and width, swapped. |
| ButtonLayout.WidenLeading | kdecoration/glassdecoration.cpp:494-501 | The left edge moves left by hPadding; the right edge, the top edge and the height stay, so the width grows by hPadding. The left padding becomes hPadding, the flag FlagFirstInList, and the icon size the preferred size. |
| ButtonLayout.WidenTrailing | kdecoration/glassdecoration.cpp:519-526 | The right edge moves right by hPadding; the left edge, the top edge and the height stay. The right padding becomes hPadding, the flag FlagFirstInList, and the icon size the preferred size. |
| ButtonLayout.LeftPass | kdecoration/glassdecoration.cpp:463-507 | An empty left group is untouched. Every button keeps its type, visibility and preferred size, and all but the edge button are plainly sized. The spacing is ButtonSpacing·smallSpacing and y is vPadding. At the left edge the group sits at x = 0 with its first button widened; otherwise it sits at hPadding + borderLeft. |
| ButtonLayout.RightPass | kdecoration/glassdecoration.cpp:463-535 | An empty right group is untouched. Every button keeps its type, visibility and preferred size, and all but the edge button are plainly sized. The spacing is ButtonSpacing·smallSpacing and y is vPadding. At the right edge the group's right end is at the decoration's width, with its last button widened; otherwise it ends hPadding + borderRight short of it. |
| ButtonLayout.UpdateButtonsGeometry | kdecoration/glassdecoration.cpp:463-536 | Both groups keep their number of buttons and sit at the same height. With non-negative padding and borders, the left group starts at or after x = 0 and the right group ends at or before the decoration's width. |
| ButtonLayout.ButtonContentTopIsFixed | kdecoration/glassdecoration.cpp:472-490 | Group y plus a button's top padding equals smallSpacing·TopMargin, whether or not the window is at the top edge. |
| ButtonLayout.LeftEdgeKeepsContentInset | kdecoration/glassdecoration.cpp:492-503 | At the left edge, group x plus the first button's left padding equals hPadding. |
| ButtonLayout.LeftEdgeWidensGroup | kdecoration/glassdecoration.cpp:492-507 | With a visible first button, the left group is exactly hPadding wider at the left edge than away from it, all else equal. |
| ButtonLayout.RightEdgeWidensGroup | kdecoration/glassdecoration.cpp:518-531 | With a visible last button, the right group is exactly hPadding wider at the right edge than away from it, all else equal. |
| ButtonLayout.UpdateButtonsGeometryIdempotent | kdecoration/glassdecoration.cpp:463-536 | Laying out a second time with unchanged inputs changes nothing. |
| Caption.PlaceCaption | kdecoration/glassdecoration.cpp:611-641 | Whenever the result is not the full-width centred one (and always for Center), its rectangle spans exactly from leftOffset to width − rightOffset. Left, Right and Center return that inset rectangle with their alignment. CenterFullWidth and unrecognised settings centre on the full width iff the centred text fits between the offsets. Otherwise they return the inset rectangle: left-aligned iff the text's left edge falls before leftOffset, else right-aligned. |
| Caption.LeftOffset | kdecoration/glassdecoration.cpp:599-603 | For a snap to the nearest pixel, the caption's left offset is the left group's end (0 without a left group) plus the side margin, within half a pixel either way. |
| Caption.RightOffset | kdecoration/glassdecoration.cpp:605-608 | For a snap to the nearest pixel, the caption's right limit (width − offset) is the right group's start minus the side margin, within half a pixel either way; without a right group, the decoration width stands in. |
| Caption.CaptionRect | kdecoration/glassdecoration.cpp:593-643 | A hidden title bar gives an empty rectangle, centred. Otherwise the height is the button size. For a snap to the nearest pixel, the caption stays clear of the buttons by a side margin, less half a pixel of rounding: the inset rectangle runs from at least the left group's end + margin − ½ pixel to at most the right group's start − margin + ½ pixel; without a group, the decoration edge stands in. A full-width centred caption covers the whole decoration width, and its text stays between those same bounds. |
| Caption.SymmetricOffsetsFallBackLeft | kdecoration/glassdecoration.cpp:624-640 | With equal offsets, CenterFullWidth falls back iff the text is wider than the inset, and then always to left alignment. |
| Buttons.Create | kdecoration/glassbutton.cpp:68-113 | No button unless the owner is a Glass decoration. Close, Maximize, Minimize, ContextHelp and Shade start visible iff the window has the matching capability; other types stay visible. The button's preferred height is the button size. |
| Buttons.Reconfigure | kdecoration/glassbutton.cpp:390-408 | Without a Glass decoration nothing changes. Otherwise only the preferred size changes: a spacer is half as wide as high, every other type is square, and the height is the button size. |
| Buttons.ReconfigureSettles | kdecoration/glassbutton.cpp:390-408 | Reconfiguring again with the same decoration changes nothing. |
| Buttons.CreatedButtonIsConfigured | kdecoration/glassbutton.cpp:39-113 | With a Glass decoration a button is created, and it is already configured: reconfiguring it changes nothing. |
| Buttons.ForegroundColor | kdecoration/glassbutton.cpp:299-324 | Priority order: no decoration gives invalid; pressed, an outlined close button, and checked KeepBelow/KeepAbove/Shade give the title-bar colour; otherwise a running animation gives exactly the font→title-bar mix, and only it does; otherwise hovered gives the title-bar colour. The font colour results iff none of these apply. |
| Buttons.ForegroundPaintedIff | kdecoration/glassbutton.cpp:301-323 | The foreground colour is valid iff the owner is a Glass decoration. |
| Buttons.BackgroundColor | kdecoration/glassbutton.cpp:327-387 | Inactive: LightGray(128) for Close, Minimize and Maximize, invalid otherwise. Active and pressed: Red, Yellow or Green at 255 for those three, a title-bar→font mix otherwise. Active, not pressed: the same three colours at alpha 192 if hovered, else 128; invalid for other types. |
| Buttons.BackgroundPaintedIff | kdecoration/glassbutton.cpp:336-386 | A background is painted iff there is a Glass decoration and the button is one of the three lights, or is pressed in an active window. |
| Buttons.HoverRaisesAlphaOnly | kdecoration/glassbutton.cpp:350-369 | Hovering a light in an active window keeps its colour and raises its alpha from 128 to 192. |
| Buttons.InactiveBackgroundIgnoresInteraction | kdecoration/glassbutton.cpp:373-384 | In an inactive window the background does not depend on pressed, hovered or checked. |
| Buttons.UpdateAnimationState | kdecoration/glassbutton.cpp:411-420 | Nothing changes unless there is a Glass decoration with animations enabled. Otherwise the animation runs, forward iff hovered. |
| Buttons.UpdateAnimationStateSettles | kdecoration/glassbutton.cpp:411-420 | A repeated hover notification with the same state leaves the animation as the first left it. |
| Scenarios.NormalPresetBorders | kdecoration/glassdecoration.cpp:340-353 | Normal preset, small spacing 4, scale 1: base 4, side and bottom borders 8. |
| Scenarios.TopBorderOfVisibleTitleBar | kdecoration/glassdecoration.cpp:418-427 | Font 14, button 24, spacing 4, bottom margin 2: top border 24 + 16 = 40. |
| Scenarios.BottomBorderNotMonotone | kdecoration/glassdecoration.cpp:348-353 | Base 1: Tiny's bottom (4) exceeds Normal's (2), so bottom borders are not monotone in the preset. |
| Scenarios.ShortCaptionCentredOnFullWidth | kdecoration/glassdecoration.cpp:624-639 | Width 400, text 100, offsets 40: the text spans 150..250 and the full-width rectangle is used, centred. |
| Scenarios.DecorationWidthCentresCaption | kdecoration/glassdecoration.cpp:626-632 | A 400-wide window with 8-pixel side borders is a 416-wide decoration. The title rectangle is 416 wide, and a 100-wide caption centres on the 416-wide full rectangle. |
| Scenarios.LongCaptionFallsBackLeft | kdecoration/glassdecoration.cpp:624-635 | Text 340 would start at 30 < 40: the inset rectangle, left-aligned. |
| Scenarios.SpacerIconSizeIsSwapped | kdecoration/glassdecoration.cpp:474-481 | A 12×24 spacer away from the edges records its icon size as 24×12. |
| Scenarios.UnitScaleGridSnapsToNearest | kdecoration/glassdecoration.cpp:599-608 | The grid used at scale 1 rounds to the nearest pixel, so the caption's half-pixel clearance applies to it. |
| Scenarios.TitleBarSymmetricAboutHalfWindowWidth | kdecoration/glassdecoration.cpp:311-321 | With side margin 4 and 8-pixel side borders, the title bar spans 4..396 while the window spans 8..408 of the 416-wide decoration. |

## Left out

- Painting (`paint`, `paintTitleBar`, `drawIcon`, the menu icon): pixel output against a painter. The caption eliding done by font metrics is left out for the same reason.
- Real painter paths: outlines are shape tags carrying their rectangles and radius; the rounded-rectangle intersection is not computed.
- Colour values: `titleBarColor`, `outlineColor` and `fontColor` are palette lookups, kept only as the tags `TitleBarColor` and `FontColor`. `KColorUtils::mix` is the tag `Mix(from, to)`; its blend weight is not modelled.
- Animation timing: duration, easing and the opacity values an animation produces. Only direction and the running flag are kept.
- Event plumbing: the signal wiring in `init`, the deferral in `updateButtonsGeometryDelayed`, and the signal connections `Button::create` makes so that visibility follows later capability changes.
- Settings loading: `Decoration::reconfigure`, which fetches the theme settings and sets the animation duration before recalculating the borders. The model takes the settings as input.
- `createButtons`: the framework builds the groups from the user's button list by calling `Button::create`. The model takes the groups as input.
- `Button(QObject*, QVariantList)`: the plugin-factory constructor.
- Shadow rendering, the shared `g_sShadow` and the shadow colour; only the parameter table and its lookup are modelled.
- `updateBlur`: its body is empty.
- The plugin factory macro.
- Host functions and header values, which are parameters: `snapToPixelGrid`, `pixelSize`, font metrics, the `Metrics::*` values, the header's inline predicates (`isMaximized`, the edge tests, `hideTitleBar`, `hasNoBorders`, `hasNoSideBorders`), and the window capabilities.
- Framework group layout: the group's width is modelled as the sum of its visible buttons' widths with the spacing between neighbours. The positions at which the framework then places each button inside the group are not modelled; a button's geometry is the rectangle this code sets and adjusts.
- Buttons.Create: the framework's default visibility for the types the code does not gate is taken to be visible.
- Shapes.TitleBarShape: the corner radius is taken as an integer, since the settings header that declares its type is not part of this model.
- int overflow: the double-to-int conversions truncate toward zero and are otherwise unbounded.
- Floating point: every `qreal` is an exact real, so rounding, infinities and NaN are not modelled. This matters for the exact `==` test in `setOpacity` (glassdecoration.cpp:155) and the halving of the caption position (line 632).
- The `update()` repaint request that ends `updateButtonsGeometry` (glassdecoration.cpp:535) is not modelled. The layout returns only the new groups, and no repaint flag goes with them.
- Decoration size: `Decoration::size()` belongs to the framework. The model takes it to be the window's size plus the borders set at line 429, with a shaded window contributing no client height.
- Pixel snapping: `snapToPixelGrid` is not part of this model. Caption.LeftOffset, Caption.RightOffset and Caption.CaptionRect state the caption's clearance for any snap that moves a value by at most half a device pixel, which rounding to the nearest pixel does; they promise nothing for other snaps.

=== FILE: borders.dfy ===
/** The border engine: border size per preset, the drawn borders and the resize-only
    margins. */
module Borders {
  import opened Geometry
  import opened Settings
  import opened CaptionMetrics

  /** The preset that decides the borders: the theme's own, when its settings exist and
      their mask contains BorderSize, otherwise the framework's. */
  function EffectiveBorderPreset(theme: Option<ThemeSettings>, host: HostSettings): BorderPreset {
    if theme.Some? && theme.value.maskHasBorderSize then theme.value.borderSize else host.borderSize
  }

  /** How many base units a preset draws on the left and right sides. */
  function SideFactor(p: BorderPreset): nat {
    match p
    case BorderNone => 0
    case BorderNoSides => 0
    case BorderTiny => 1
    case BorderUnrecognised => 1
    case BorderNormal => 2
    case BorderLarge => 3
    case BorderVeryLarge => 4
    case BorderHuge => 5
    case BorderVeryHuge => 6
    case BorderOversized => 10
  }

  /** The presets whose bottom border is a snapped minimum of four instead of a multiple. */
  predicate KeepsBottomMinimum(p: BorderPreset) {
    p.BorderNoSides? || p.BorderTiny? || p.BorderUnrecognised?
  }

  /** The unit every preset scales: at least one device pixel, otherwise the snapped small spacing. */
  function BaseUnit(host: HostSettings, grid: PixelGrid, scale: real): (b: real)
    ensures b >= grid.pixelSize(scale) && b >= grid.snap(host.smallSpacing as real, scale)
    ensures b == grid.pixelSize(scale) || b == grid.snap(host.smallSpacing as real, scale)
  {
    Max(grid.pixelSize(scale), grid.snap(host.smallSpacing as real, scale))
  }

  /** The switch over the preset, shared by the theme's table and the framework's table. */
  function PresetBorderSize(p: BorderPreset, bottom: bool, base: real, grid: PixelGrid, scale: real): (r: real)
    ensures !bottom ==> r == SideFactor(p) as real * base
    ensures bottom && KeepsBottomMinimum(p) ==> r == grid.snap(Max(4.0, base), scale)
    ensures bottom && !KeepsBottomMinimum(p) ==> r == SideFactor(p) as real * base
  {
    match p
    case BorderNone => 0.0
    case BorderNoSides => if bottom then grid.snap(Max(4.0, base), scale) else 0.0
    case BorderTiny => if bottom then grid.snap(Max(4.0, base), scale) else base
    case BorderUnrecognised => if bottom then grid.snap(Max(4.0, base), scale) else base
    case BorderNormal => base * 2.0
    case BorderLarge => base * 3.0
    case BorderVeryLarge => base * 4.0
    case BorderHuge => base * 5.0
    case BorderVeryHuge => base * 6.0
    case BorderOversized => base * 10.0
  }

  /** Decoration::borderSize(bottom, scale). */
  function BorderSize(theme: Option<ThemeSettings>, host: HostSettings, grid: PixelGrid, bottom: bool, scale: real): (r: real)
    ensures var p := EffectiveBorderPreset(theme, host);
            var base := BaseUnit(host, grid, scale);
            && (!bottom ==> r == SideFactor(p) as real * base)
            && (bottom && KeepsBottomMinimum(p) ==> r == grid.snap(Max(4.0, base), scale))
            && (bottom && !KeepsBottomMinimum(p) ==> r == SideFactor(p) as real * base)
  {
    var base := BaseUnit(host, grid, scale);
    if theme.Some? && theme.value.maskHasBorderSize then
      PresetBorderSize(theme.value.borderSize, bottom, base, grid, scale)
    else
      PresetBorderSize(host.borderSize, bottom, base, grid, scale)
  }

  /** Along the declared preset order the side borders never shrink. */
  lemma {:induction false} SideBordersMonotone(p: BorderPreset, q: BorderPreset, base: real, grid: PixelGrid, scale: real)
    requires p.Recognised() && q.Recognised() && p.Rank() <= q.Rank()
    requires base >= 0.0
    ensures 0.0 <= PresetBorderSize(p, false, base, grid, scale) <= PresetBorderSize(q, false, base, grid, scale)
  {
    SideFactorMonotone(p, q);
    var fp, fq := SideFactor(p) as real, SideFactor(q) as real;
    assert fp * base <= fq * base by {
      assert (fq - fp) * base >= 0.0;
    }
  }

  lemma SideFactorMonotone(p: BorderPreset, q: BorderPreset)
    requires p.Recognised() && q.Recognised() && p.Rank() <= q.Rank()
    ensures SideFactor(p) <= SideFactor(q)
  {
  }

  /** With a non-negative pixel size and a sign-preserving snap, every border is non-negative. */
  lemma {:induction false} BorderSizeNonNegative(theme: Option<ThemeSettings>, host: HostSettings, grid: PixelGrid, bottom: bool, scale: real)
    requires grid.pixelSize(scale) >= 0.0
    requires SnapKeepsSign(grid)
    ensures BorderSize(theme, host, grid, bottom, scale) >= 0.0
  {
    var base := BaseUnit(host, grid, scale);
    var p := EffectiveBorderPreset(theme, host);
    assert base >= 0.0;
    if bottom && KeepsBottomMinimum(p) {
      assert grid.snap(Max(4.0, base), scale) >= 0.0;
    } else {
      assert SideFactor(p) as real * base >= 0.0;
    }
  }

  /** The drawn borders and the invisible resize-only margins. */
  datatype BorderState = BorderState(borders: Margins, resizeOnly: Margins)

  /** Decoration::recalculateBorders(). */
  function RecalculateBorders(w: WindowState, host: HostSettings, theme: ThemeSettings, m: Metrics, grid: PixelGrid): (r: BorderState)
    ensures var side := BorderSize(Some(theme), host, grid, false, w.nextScale);
            r.borders.left == side && r.borders.right == side
    ensures r.borders.bottom == BorderSize(Some(theme), host, grid, true, w.nextScale)
    ensures w.hideTitleBar ==> r.borders.top == r.borders.bottom
    ensures !w.hideTitleBar ==>
              r.borders.top
              == grid.snap(Max(host.fontHeight as real, ButtonSize(theme.buttonSize, host.gridUnit) as real), w.nextScale)
               + grid.snap((2 * host.smallSpacing * m.titleBarBottomMargin) as real, w.nextScale)
    ensures r.resizeOnly.top == 0.0 && r.resizeOnly.left == r.resizeOnly.right
    ensures var ext := grid.snap(host.largeSpacing as real, w.nextScale);
            && r.resizeOnly.left
               == (if (w.noBorders || w.noSideBorders) && !w.maximizedHorizontally then ext else 0.0)
            && r.resizeOnly.bottom == (if w.noBorders && !w.maximizedVertically then ext else 0.0)
  {
    var scale := w.nextScale;
    var left := BorderSize(Some(theme), host, grid, false, scale);
    var right := BorderSize(Some(theme), host, grid, false, scale);
    var bottom := BorderSize(Some(theme), host, grid, true, scale);
    var top :=
      if w.hideTitleBar then bottom
      else
        var baseSize := host.smallSpacing * 2;
        grid.snap(Max(host.fontHeight as real, ButtonSize(theme.buttonSize, host.gridUnit) as real), scale)
        + grid.snap((baseSize * m.titleBarBottomMargin) as real, scale);
    var extSize := grid.snap(host.largeSpacing as real, w.nextScale);
    var extSides :=
      if w.noBorders then (if !w.maximizedHorizontally then extSize else 0.0)
      else if w.noSideBorders && !w.maximizedHorizontally then extSize
      else 0.0;
    var extBottom := if w.noBorders && !w.maximizedVertically then extSize else 0.0;
    BorderState(Margins(left, top, right, bottom), Margins(extSides, 0.0, extSides, extBottom))
  }

  /** Under sign-preserving snapping, non-negative spacings and a non-negative pixel size,
      every drawn border and every resize-only margin is non-negative. */
  lemma {:induction false} BordersNonNegative(w: WindowState, host: HostSettings, theme: ThemeSettings, m: Metrics, grid: PixelGrid)
    requires SnapKeepsSign(grid) && grid.pixelSize(w.nextScale) >= 0.0
    requires host.smallSpacing >= 0 && host.largeSpacing >= 0 && host.fontHeight >= 0
    requires m.titleBarBottomMargin >= 0
    ensures var r := RecalculateBorders(w, host, theme, m, grid);
            && r.borders.left >= 0.0 && r.borders.top >= 0.0 && r.borders.right >= 0.0 && r.borders.bottom >= 0.0
            && r.resizeOnly.left >= 0.0 && r.resizeOnly.right >= 0.0 && r.resizeOnly.bottom >= 0.0
  {
    BorderSizeNonNegative(Some(theme), host, grid, false, w.nextScale);
    BorderSizeNonNegative(Some(theme), host, grid, true, w.nextScale);
    var big := Max(host.fontHeight as real, ButtonSize(theme.buttonSize, host.gridUnit) as real);
    assert grid.snap(big, w.nextScale) >= 0.0;
    assert 2 * host.smallSpacing * m.titleBarBottomMargin >= 0;
    assert grid.snap((2 * host.smallSpacing * m.titleBarBottomMargin) as real, w.nextScale) >= 0.0;
    assert grid.snap(host.largeSpacing as real, w.nextScale) >= 0.0;
  }

  /** A hidden title bar leaves the caption as high as the bottom border, which then also
      serves as the top border, cut to a whole number. */
  lemma HiddenCaptionHeightIsBottomBorder(w: WindowState, host: HostSettings, theme: ThemeSettings, m: Metrics,
                                          grid: PixelGrid, buttonSize: int)
    requires w.hideTitleBar
    ensures var b := RecalculateBorders(w, host, theme, m, grid).borders;
            CaptionHeight(w.hideTitleBar, b.top, buttonSize) == Trunc(b.bottom)
  {
  }

  /** Decoration::size() as the framework reports it: the window with the borders around
      it. A shaded window shows no client area, so only the borders make up its height. */
  function DecorationSize(w: WindowState, b: Margins): SizeF {
    SizeF(b.left + w.width + b.right, b.top + (if w.shaded then 0.0 else w.height) + b.bottom)
  }

  /** With the borders the decoration computes, the decoration is the window widened by
      one side border on each side, and never narrower than the window. */
  lemma DecorationEnclosesWindow(w: WindowState, host: HostSettings, theme: ThemeSettings, m: Metrics, grid: PixelGrid)
    requires SnapKeepsSign(grid) && grid.pixelSize(w.nextScale) >= 0.0
    ensures var b := RecalculateBorders(w, host, theme, m, grid).borders;
            var s := DecorationSize(w, b);
            && s.width == w.width + 2.0 * BorderSize(Some(theme), host, grid, false, w.nextScale)
            && s.width >= w.width
  {
    BorderSizeNonNegative(Some(theme), host, grid, false, w.nextScale);
  }
}

=== FILE: button.dfy ===
/** A window-control button: how it is created, its preferred size, its colours and its
    hover animation. */
module Buttons {
  import opened Geometry
  import opened Settings
  import opened Animations

  datatype ButtonType =
    | Menu | ApplicationMenu | OnAllDesktops | Minimize | Maximize | Close
    | ContextHelp | Shade | KeepBelow | KeepAbove | Custom | Spacer

  /** The three window-control buttons drawn as coloured lights. */
  predicate IsTrafficLight(kind: ButtonType) {
    kind.Close? || kind.Minimize? || kind.Maximize?
  }

  datatype ButtonFlag = FlagNone | FlagStandalone | FlagFirstInList | FlagLastInList

  /** The state of one button that the decoration's layout reads and writes. */
  datatype Button = Button(
    kind: ButtonType,
    visible: bool,
    preferredSize: SizeF,
    geometry: RectF,
    padding: Margins,
    offset: PointF,
    iconSize: SizeF,
    flag: ButtonFlag)

  /** What a button can see of its owner when the owner is a Glass decoration. */
  datatype GlassDeco = GlassDeco(
    buttonSize: int,
    active: bool,
    outlineCloseButton: bool,
    animationsEnabled: bool)

  /** The window capabilities that gate the visibility of some buttons. */
  datatype Capabilities = Capabilities(
    closeable: bool,
    maximizeable: bool,
    minimizeable: bool,
    providesContextHelp: bool,
    shadeable: bool)

  /** The capability a button's visibility follows, for the types that follow one. */
  function GatingCapability(kind: ButtonType, caps: Capabilities): Option<bool> {
    match kind
    case Close => Some(caps.closeable)
    case Maximize => Some(caps.maximizeable)
    case Minimize => Some(caps.minimizeable)
    case ContextHelp => Some(caps.providesContextHelp)
    case Shade => Some(caps.shadeable)
    case _ => None
  }

  /** Button::reconfigure(): nothing happens without a Glass decoration; otherwise a spacer
      prefers half the button size in width, every other type a square of the button size. */
  function Reconfigure(b: Button, deco: Option<GlassDeco>): (r: Button)
    ensures deco.None? ==> r == b
    ensures deco.Some? ==>
              && r == b.(preferredSize := r.preferredSize)
              && r.preferredSize.height == deco.value.buttonSize as real
              && (r.kind.Spacer? ==> r.preferredSize.width * 2.0 == r.preferredSize.height)
              && (!r.kind.Spacer? ==> r.preferredSize.width == r.preferredSize.height)
  {
    if deco.None? then b
    else
      var size := deco.value.buttonSize as real;
      match b.kind
      case Spacer => b.(preferredSize := SizeF(size * 0.5, size))
      case _ => b.(preferredSize := SizeF(size, size))
  }

  /** A freshly constructed button: visible, as the framework creates buttons, with no
      geometry yet. */
  function NewButton(kind: ButtonType): Button {
    Button(kind, true, SizeF(0.0, 0.0), EmptyRect, Margins(0.0, 0.0, 0.0, 0.0), PointF(0.0, 0.0),
           SizeF(0.0, 0.0), FlagNone)
  }

  /** Button::create(type, decoration): no button unless the owner is a Glass decoration;
      otherwise a reconfigured button whose visibility follows the matching capability for
      close, maximize, minimize, context help and shade, and stays visible for the others. */
  function Create(kind: ButtonType, deco: Option<GlassDeco>, caps: Capabilities): (r: Option<Button>)
    ensures r.Some? <==> deco.Some?
    ensures r.Some? ==> r.value.kind == kind
    ensures r.Some? && GatingCapability(kind, caps).Some? ==> r.value.visible == GatingCapability(kind, caps).value
    ensures r.Some? && GatingCapability(kind, caps).None? ==> r.value.visible
    ensures r.Some? ==> r.value.preferredSize.height == deco.value.buttonSize as real
  {
    if deco.None? then None
    else
      var b := Reconfigure(NewButton(kind), deco);
      match kind
      case Close => Some(b.(visible := caps.closeable))
      case Maximize => Some(b.(visible := caps.maximizeable))
      case Minimize => Some(b.(visible := caps.minimizeable))
      case ContextHelp => Some(b.(visible := caps.providesContextHelp))
      case Shade => Some(b.(visible := caps.shadeable))
      case _ => Some(b)
  }

  /** Reconfiguring an existing button again with the same decoration changes nothing. */
  lemma ReconfigureSettles(b: Button, deco: Option<GlassDeco>)
    ensures Reconfigure(Reconfigure(b, deco), deco) == Reconfigure(b, deco)
  {
  }

  /** A button comes out of creation already configured: reconfiguring it changes nothing. */
  lemma CreatedButtonIsConfigured(kind: ButtonType, deco: Option<GlassDeco>, caps: Capabilities)
    requires deco.Some?
    ensures Create(kind, deco, caps).Some?
    ensures Reconfigure(Create(kind, deco, caps).value, deco) == Create(kind, deco, caps).value
  {
  }

  /** Colours as tags. Mix(a, b) is a blend of a toward b whose weight is left out. */
  datatype Color =
    | InvalidColor
    | TitleBarColor
    | FontColor
    | Mix(from: Color, to: Color)
    | Red(alpha: int)
    | Yellow(alpha: int)
    | Green(alpha: int)
    | LightGray(alpha: int)
  {
    /** QColor::isValid(). */
    predicate IsValid() { !InvalidColor? }
  }

  /** Press, hover and toggle state of one button, and whether its hover animation runs. */
  datatype Interaction = Interaction(pressed: bool, hovered: bool, checked: bool, animationRunning: bool)

  /** Button::foregroundColor(): the first matching rule of a fixed priority order wins. */
  function ForegroundColor(kind: ButtonType, deco: Option<GlassDeco>, st: Interaction): (c: Color)
    ensures deco.None? ==> c == InvalidColor
    ensures deco.Some? && st.pressed ==> c == TitleBarColor
    ensures deco.Some? && kind.Close? && deco.value.outlineCloseButton ==> c == TitleBarColor
    ensures deco.Some? && (kind.KeepBelow? || kind.KeepAbove? || kind.Shade?) && st.checked ==> c == TitleBarColor
    ensures deco.Some? && st.hovered && !st.animationRunning ==> c == TitleBarColor
    ensures deco.Some? && !st.pressed && !(kind.Close? && deco.value.outlineCloseButton)
            && !((kind.KeepBelow? || kind.KeepAbove? || kind.Shade?) && st.checked) && st.animationRunning
            ==> c == Mix(FontColor, TitleBarColor)
    ensures c.Mix? ==> deco.Some? && st.animationRunning && c == Mix(FontColor, TitleBarColor)
    ensures c == FontColor <==>
              && deco.Some? && !st.pressed && !st.hovered && !st.animationRunning
              && !(kind.Close? && deco.value.outlineCloseButton)
              && !((kind.KeepBelow? || kind.KeepAbove? || kind.Shade?) && st.checked)
  {
    if deco.None? then InvalidColor
    else if st.pressed then TitleBarColor
    else if kind.Close? && deco.value.outlineCloseButton then TitleBarColor
    else if (kind.KeepBelow? || kind.KeepAbove? || kind.Shade?) && st.checked then TitleBarColor
    else if st.animationRunning then Mix(FontColor, TitleBarColor)
    else if st.hovered then TitleBarColor
    else FontColor
  }

  /** The colour of a traffic light, with the given alpha. */
  function LightColor(kind: ButtonType, alpha: int): Color
    requires IsTrafficLight(kind)
  {
    match kind
    case Close => Red(alpha)
    case Minimize => Yellow(alpha)
    case Maximize => Green(alpha)
  }

  /** Button::backgroundColor(). */
  function BackgroundColor(kind: ButtonType, deco: Option<GlassDeco>, st: Interaction): (c: Color)
    ensures deco.None? ==> c == InvalidColor
    ensures deco.Some? && !deco.value.active ==>
              c == (if IsTrafficLight(kind) then LightGray(128) else InvalidColor)
    ensures deco.Some? && deco.value.active && st.pressed ==>
              c == (if IsTrafficLight(kind) then LightColor(kind, 255) else Mix(TitleBarColor, FontColor))
    ensures deco.Some? && deco.value.active && !st.pressed ==>
              c == (if IsTrafficLight(kind) then LightColor(kind, if st.hovered then 192 else 128) else InvalidColor)
  {
    if deco.None? then InvalidColor
    else if deco.value.active then
      if st.pressed then
        match kind
        case Close => Red(255)
        case Minimize => Yellow(255)
        case Maximize => Green(255)
        case _ => Mix(TitleBarColor, FontColor)
      else
        var alpha := if st.hovered then 192 else 128;
        match kind
        case Close => Red(alpha)
        case Minimize => Yellow(alpha)
        case Maximize => Green(alpha)
        case _ => InvalidColor
    else
      match kind
      case Close => LightGray(128)
      case Minimize => LightGray(128)
      case Maximize => LightGray(128)
      case _ => InvalidColor
  }

  /** A background is painted exactly for the traffic lights, and for any button pressed in
      an active window. */
  lemma BackgroundPaintedIff(kind: ButtonType, deco: Option<GlassDeco>, st: Interaction)
    ensures BackgroundColor(kind, deco, st).IsValid()
            <==> deco.Some? && (IsTrafficLight(kind) || (deco.value.active && st.pressed))
  {
  }

  /** A foreground mark is drawn exactly when the owner is a Glass decoration. */
  lemma ForegroundPaintedIff(kind: ButtonType, deco: Option<GlassDeco>, st: Interaction)
    ensures ForegroundColor(kind, deco, st).IsValid() <==> deco.Some?
  {
  }

  /** Hovering a traffic light of an active window only raises its alpha, from 128 to 192. */
  lemma HoverRaisesAlphaOnly(kind: ButtonType, deco: GlassDeco, st: Interaction)
    requires IsTrafficLight(kind) && deco.active && !st.pressed
    ensures var plain := BackgroundColor(kind, Some(deco), st.(hovered := false));
            var hover := BackgroundColor(kind, Some(deco), st.(hovered := true));
            && plain == LightColor(kind, 128) && hover == LightColor(kind, 192)
  {
  }

  /** In an inactive window the background ignores pressing, hovering and checking. */
  lemma InactiveBackgroundIgnoresInteraction(kind: ButtonType, deco: GlassDeco, st: Interaction, st': Interaction)
    requires !deco.active
    ensures BackgroundColor(kind, Some(deco), st) == BackgroundColor(kind, Some(deco), st')
  {
  }

  /** Button::updateAnimationState(hovered): without a Glass decoration with animations
      enabled nothing happens; otherwise the animation runs toward the hovered look
      (forward) or away from it (backward). */
  function UpdateAnimationState(deco: Option<GlassDeco>, hovered: bool, a: Animation): (r: Animation)
    ensures !(deco.Some? && deco.value.animationsEnabled) ==> r == a
    ensures deco.Some? && deco.value.animationsEnabled ==>
              r.running && (r.direction == Forward <==> hovered)
  {
    if !(deco.Some? && deco.value.animationsEnabled) then a
    else Drive(a, if hovered then Forward else Backward)
  }

  /** A repeated hover notification with the same state leaves the animation as the first
      one left it. */
  lemma UpdateAnimationStateSettles(deco: Option<GlassDeco>, hovered: bool, a: Animation)
    ensures UpdateAnimationState(deco, hovered, UpdateAnimationState(deco, hovered, a))
            == UpdateAnimationState(deco, hovered, a)
  {
  }
}

=== FILE: button_layout.dfy ===
/** The button-group layout: per-button geometry, padding and icon size, and where the
    left and right groups sit, with the edge button widened toward a screen edge. */
module ButtonLayout {
  import opened Geometry
  import opened Settings
  import opened Buttons

  /** An ordered row of buttons, the spacing between them and the row's top-left corner. */
  datatype ButtonGroup = ButtonGroup(buttons: seq<Button>, spacing: real, pos: PointF)

  datatype Groups = Groups(left: ButtonGroup, right: ButtonGroup)

  /** What the layout reads besides the groups. `width` is the decoration's width (the
      window with its borders), against which the right group is placed. */
  datatype LayoutInput = LayoutInput(
    smallSpacing: int,
    metrics: Metrics,
    topEdge: bool,
    leftEdge: bool,
    rightEdge: bool,
    width: real,
    borderLeft: real,
    borderRight: real)

  /** The widths of the visible buttons, in order. */
  function VisibleWidths(bs: seq<Button>): seq<real> {
    if |bs| == 0 then []
    else (if bs[0].visible then [bs[0].geometry.width] else []) + VisibleWidths(bs[1..])
  }

  /** The length of a row of the given widths with `spacing` between neighbours. */
  function Span(ws: seq<real>, spacing: real): real {
    if |ws| == 0 then 0.0
    else if |ws| == 1 then ws[0]
    else ws[0] + spacing + Span(ws[1..], spacing)
  }

  /** The width of a group as the framework lays it out: its visible buttons side by side. */
  function GroupWidth(g: ButtonGroup): real {
    Span(VisibleWidths(g.buttons), g.spacing)
  }

  /** The top margin a button carries itself, which it does only at the top screen edge. */
  function VerticalOffset(inp: LayoutInput): int {
    if inp.topEdge then TopMarginPixels(inp.smallSpacing, inp.metrics) else 0
  }

  /** The top margin the group keeps above its buttons, away from the top screen edge. */
  function VerticalPadding(inp: LayoutInput): int {
    if inp.topEdge then 0 else TopMarginPixels(inp.smallSpacing, inp.metrics)
  }

  function HorizontalPadding(inp: LayoutInput): int {
    SideMarginPixels(inp.smallSpacing, inp.metrics)
  }

  function ButtonSpacing(inp: LayoutInput): int {
    inp.smallSpacing * inp.metrics.titleBarButtonSpacing
  }

  /** The loop body over every button: a rectangle of the preferred size (converted to int)
      grown downward by the vertical offset, the offset as top padding, and the icon size
      set from that rectangle's height and width in that order. */
  function SizeButton(b: Button, vOffset: int): (r: Button)
    ensures r == b.(geometry := r.geometry, padding := r.padding, offset := r.offset, iconSize := r.iconSize)
    ensures r.geometry == RectF(0.0, 0.0, Trunc(b.preferredSize.width) as real,
                                Trunc(b.preferredSize.height + vOffset as real) as real)
    ensures r.padding == Margins(0.0, vOffset as real, 0.0, 0.0) && r.offset == PointF(0.0, vOffset as real)
    ensures r.iconSize.width == r.geometry.height && r.iconSize.height == r.geometry.width
  {
    var bHeight := Trunc(b.preferredSize.height + vOffset as real);
    var bWidth := Trunc(b.preferredSize.width);
    b.(geometry := RectF(0.0, 0.0, bWidth as real, bHeight as real),
       padding := Margins(0.0, vOffset as real, 0.0, 0.0),
       offset := PointF(0.0, vOffset as real),
       iconSize := SizeF(bHeight as real, bWidth as real))
  }

  /** The per-button sizing applied to a whole group's buttons. */
  function SizeAll(bs: seq<Button>, vOffset: int): seq<Button> {
    seq(|bs|, i requires 0 <= i < |bs| => SizeButton(bs[i], vOffset))
  }

  /** The first left button at a left screen edge: widened leftward by the padding, which
      it keeps as its own left padding, and its icon set back to the preferred size. */
  function WidenLeading(b: Button, hPadding: int): (r: Button)
    ensures r.geometry.x == b.geometry.x - hPadding as real && r.geometry.Right() == b.geometry.Right()
    ensures r.geometry.width == b.geometry.width + hPadding as real
    ensures r.geometry.y == b.geometry.y && r.geometry.height == b.geometry.height
    ensures r.padding == b.padding.(left := hPadding as real)
    ensures r.flag == FlagFirstInList && r.iconSize == b.preferredSize
    ensures r == b.(geometry := r.geometry, padding := r.padding, flag := r.flag, iconSize := r.iconSize)
  {
    b.(geometry := b.geometry.Adjusted(-(hPadding as real), 0.0, 0.0, 0.0),
       flag := FlagFirstInList,
       padding := b.padding.(left := hPadding as real),
       iconSize := b.preferredSize)
  }

  /** The last right button at a right screen edge: widened rightward by the padding, kept
      as its right padding. It is flagged FlagFirstInList, as the code does. */
  function WidenTrailing(b: Button, hPadding: int): (r: Button)
    ensures r.geometry.x == b.geometry.x && r.geometry.Right() == b.geometry.Right() + hPadding as real
    ensures r.geometry.width == b.geometry.width + hPadding as real
    ensures r.geometry.y == b.geometry.y && r.geometry.height == b.geometry.height
    ensures r.padding == b.padding.(right := hPadding as real)
    ensures r.flag == FlagFirstInList && r.iconSize == b.preferredSize
    ensures r == b.(geometry := r.geometry, padding := r.padding, flag := r.flag, iconSize := r.iconSize)
  {
    b.(geometry := b.geometry.Adjusted(0.0, 0.0, hPadding as real, 0.0),
       flag := FlagFirstInList,
       padding := b.padding.(right := hPadding as real),
       iconSize := b.preferredSize)
  }

  /** The left group: laid out from x = 0 with its first button widened at a left screen
      edge, otherwise after the padding and the left border. */
  function LayoutLeft(g: ButtonGroup, inp: LayoutInput): ButtonGroup {
    if |g.buttons| == 0 then g
    else
      var spacing := ButtonSpacing(inp) as real;
      var vPadding := VerticalPadding(inp);
      var hPadding := HorizontalPadding(inp);
      if inp.leftEdge then
        ButtonGroup(g.buttons[0 := WidenLeading(g.buttons[0], hPadding)], spacing, PointF(0.0, vPadding as real))
      else
        ButtonGroup(g.buttons, spacing, PointF(hPadding as real + inp.borderLeft, vPadding as real))
  }

  /** The right group: its right end at the window's right edge with its last button widened
      at a right screen edge, otherwise the padding and the right border short of it. */
  function LayoutRight(g: ButtonGroup, inp: LayoutInput): (r: ButtonGroup)
    ensures |g.buttons| == 0 ==> r == g
    ensures |g.buttons| > 0 ==>
              var last := |g.buttons| - 1;
              && r.spacing == ButtonSpacing(inp) as real
              && r.pos.y == VerticalPadding(inp) as real
              && (inp.rightEdge ==>
                    && r.buttons == g.buttons[last := WidenTrailing(g.buttons[last], HorizontalPadding(inp))]
                    && r.pos.x + GroupWidth(r) == inp.width)
              && (!inp.rightEdge ==>
                    && r.buttons == g.buttons
                    && r.pos.x + GroupWidth(r) + HorizontalPadding(inp) as real + inp.borderRight == inp.width)
  {
    if |g.buttons| == 0 then g
    else
      var spacing := ButtonSpacing(inp) as real;
      var vPadding := VerticalPadding(inp);
      var hPadding := HorizontalPadding(inp);
      var last := |g.buttons| - 1;
      if inp.rightEdge then
        var bs := g.buttons[last := WidenTrailing(g.buttons[last], hPadding)];
        var width := Span(VisibleWidths(bs), spacing);
        ButtonGroup(bs, spacing, PointF(inp.width - width, vPadding as real))
      else
        var width := Span(VisibleWidths(g.buttons), spacing);
        ButtonGroup(g.buttons, spacing, PointF(inp.width - width - hPadding as real - inp.borderRight, vPadding as real))
  }

  /** The left half of updateButtonsGeometry: size every button, then place the group. */
  function LeftPass(g: ButtonGroup, inp: LayoutInput): (r: ButtonGroup)
    ensures |r.buttons| == |g.buttons|
    ensures |g.buttons| == 0 ==> r == g
    // every button keeps its type, visibility and preferred size
    ensures forall i :: 0 <= i < |g.buttons| ==>
              && r.buttons[i].kind == g.buttons[i].kind
              && r.buttons[i].visible == g.buttons[i].visible
              && r.buttons[i].preferredSize == g.buttons[i].preferredSize
    // only the edge button differs from the plain per-button sizing
    ensures forall i :: 0 <= i < |g.buttons| && !(inp.leftEdge && i == 0) ==>
              r.buttons[i] == SizeButton(g.buttons[i], VerticalOffset(inp))
    // anchored at the left screen edge, or after the padding and the border
    ensures |g.buttons| > 0 ==>
              && r.spacing == ButtonSpacing(inp) as real
              && r.pos.y == VerticalPadding(inp) as real
              && (inp.leftEdge ==>
                    && r.pos.x == 0.0
                    && r.buttons[0] == WidenLeading(SizeButton(g.buttons[0], VerticalOffset(inp)), HorizontalPadding(inp)))
              && (!inp.leftEdge ==> r.pos.x == HorizontalPadding(inp) as real + inp.borderLeft)
  {
    var sized := g.(buttons := SizeAll(g.buttons, VerticalOffset(inp)));
    var laid := LayoutLeft(sized, inp);
    assert forall i :: 0 <= i < |g.buttons| && !(inp.leftEdge && i == 0) ==> laid.buttons[i] == sized.buttons[i];
    laid
  }

  /** The right half of updateButtonsGeometry: size every button, then place the group. */
  function RightPass(g: ButtonGroup, inp: LayoutInput): (r: ButtonGroup)
    ensures |r.buttons| == |g.buttons|
    ensures |g.buttons| == 0 ==> r == g
    // every button keeps its type, visibility and preferred size
    ensures forall i :: 0 <= i < |g.buttons| ==>
              && r.buttons[i].kind == g.buttons[i].kind
              && r.buttons[i].visible == g.buttons[i].visible
              && r.buttons[i].preferredSize == g.buttons[i].preferredSize
    // only the edge button differs from the plain per-button sizing
    ensures forall i :: 0 <= i < |g.buttons| && !(inp.rightEdge && i == |g.buttons| - 1) ==>
              r.buttons[i] == SizeButton(g.buttons[i], VerticalOffset(inp))
    // its right end at the window's right edge, or before the padding and the border
    ensures |g.buttons| > 0 ==>
              var last := |g.buttons| - 1;
              && r.spacing == ButtonSpacing(inp) as real
              && r.pos.y == VerticalPadding(inp) as real
              && (inp.rightEdge ==>
                    && r.pos.x + GroupWidth(r) == inp.width
                    && r.buttons[last] == WidenTrailing(SizeButton(g.buttons[last], VerticalOffset(inp)), HorizontalPadding(inp)))
              && (!inp.rightEdge ==>
                    r.pos.x + GroupWidth(r) + HorizontalPadding(inp) as real + inp.borderRight == inp.width)
  {
    var sized := g.(buttons := SizeAll(g.buttons, VerticalOffset(inp)));
    var laid := LayoutRight(sized, inp);
    assert forall i :: 0 <= i < |g.buttons| && !(inp.rightEdge && i == |g.buttons| - 1) ==>
                         laid.buttons[i] == sized.buttons[i];
    laid
  }

  /** Decoration::updateButtonsGeometry(): both groups laid out, each independently. */
  function UpdateButtonsGeometry(inp: LayoutInput, groups: Groups): (r: Groups)
    ensures |r.left.buttons| == |groups.left.buttons| && |r.right.buttons| == |groups.right.buttons|
    ensures |groups.left.buttons| > 0 && |groups.right.buttons| > 0 ==> r.left.pos.y == r.right.pos.y
    // with non-negative padding and borders, both groups stay inside the decoration
    ensures |groups.left.buttons| > 0 && HorizontalPadding(inp) >= 0 && inp.borderLeft >= 0.0 ==> r.left.pos.x >= 0.0
    ensures |groups.right.buttons| > 0 && HorizontalPadding(inp) >= 0 && inp.borderRight >= 0.0 ==>
              r.right.pos.x + GroupWidth(r.right) <= inp.width
  {
    Groups(LeftPass(groups.left, inp), RightPass(groups.right, inp))
  }

  /** Whatever the top edge, a button's content starts at the same height: at the top edge
      the group sits at y = 0 and the button carries the margin as top padding; elsewhere
      the group sits one margin down and the button has none. */
  lemma ButtonContentTopIsFixed(inp: LayoutInput, groups: Groups)
    ensures var r := UpdateButtonsGeometry(inp, groups);
            var top := TopMarginPixels(inp.smallSpacing, inp.metrics) as real;
            && (forall i :: 0 <= i < |r.left.buttons| ==> r.left.pos.y + r.left.buttons[i].padding.top == top)
            && (forall i :: 0 <= i < |r.right.buttons| ==> r.right.pos.y + r.right.buttons[i].padding.top == top)
  {
  }

  /** At a left screen edge the first button's content still starts one padding in: the
      group moves to x = 0 and the button takes the padding as its left padding. */
  lemma LeftEdgeKeepsContentInset(inp: LayoutInput, groups: Groups)
    requires inp.leftEdge && |groups.left.buttons| > 0
    ensures var r := UpdateButtonsGeometry(inp, groups);
            r.left.pos.x + r.left.buttons[0].padding.left == HorizontalPadding(inp) as real
  {
  }

  lemma {:induction false} VisibleWidthsAppend(a: seq<Button>, b: seq<Button>)
    ensures VisibleWidths(a + b) == VisibleWidths(a) + VisibleWidths(b)
    decreases |a|
  {
    if |a| == 0 {
      assert a + b == b;
    } else {
      var ab := a + b;
      assert ab[0] == a[0];
      assert ab[1..] == a[1..] + b;
      VisibleWidthsAppend(a[1..], b);
      assert VisibleWidths(ab) == (if a[0].visible then [a[0].geometry.width] else []) + VisibleWidths(a[1..] + b);
    }
  }

  /** Widening the last of a row by `h` widens the row by `h`. */
  lemma {:induction false} SpanGrowsAtEnd(ws: seq<real>, x: real, h: real, spacing: real)
    ensures Span(ws + [x + h], spacing) == Span(ws + [x], spacing) + h
    decreases |ws|
  {
    if |ws| == 0 {
      assert ws + [x + h] == [x + h];
      assert ws + [x] == [x];
    } else {
      assert (ws + [x + h])[1..] == ws[1..] + [x + h];
      assert (ws + [x])[1..] == ws[1..] + [x];
      SpanGrowsAtEnd(ws[1..], x, h, spacing);
    }
  }

  /** Widening the first of a row by `h` widens the row by `h`. */
  lemma SpanGrowsAtStart(ws: seq<real>, x: real, h: real, spacing: real)
    ensures Span([x + h] + ws, spacing) == Span([x] + ws, spacing) + h
  {
    assert ([x + h] + ws)[1..] == ws;
    assert ([x] + ws)[1..] == ws;
  }

  /** Widening a visible first button by `h` widens its row by `h`. */
  lemma {:induction false} WidenLeadingWidensRow(bs: seq<Button>, h: int, spacing: real)
    requires |bs| > 0 && bs[0].visible
    ensures Span(VisibleWidths(bs[0 := WidenLeading(bs[0], h)]), spacing) == Span(VisibleWidths(bs), spacing) + h as real
  {
    var first := WidenLeading(bs[0], h);
    var widened := bs[0 := first];
    assert widened[1..] == bs[1..];
    assert VisibleWidths(widened) == [bs[0].geometry.width + h as real] + VisibleWidths(bs[1..]);
    assert VisibleWidths(bs) == [bs[0].geometry.width] + VisibleWidths(bs[1..]);
    SpanGrowsAtStart(VisibleWidths(bs[1..]), bs[0].geometry.width, h as real, spacing);
  }

  /** Widening a visible last button by `h` widens its row by `h`. */
  lemma {:induction false} WidenTrailingWidensRow(bs: seq<Button>, h: int, spacing: real)
    requires |bs| > 0 && bs[|bs| - 1].visible
    ensures Span(VisibleWidths(bs[|bs| - 1 := WidenTrailing(bs[|bs| - 1], h)]), spacing)
            == Span(VisibleWidths(bs), spacing) + h as real
  {
    var n := |bs| - 1;
    var lastOne := WidenTrailing(bs[n], h);
    var init := bs[..n];
    assert bs == init + [bs[n]];
    assert bs[n := lastOne] == init + [lastOne];
    VisibleWidthsAppend(init, [bs[n]]);
    VisibleWidthsAppend(init, [lastOne]);
    assert [lastOne][1..] == [] && [bs[n]][1..] == [];
    assert VisibleWidths([lastOne]) == [bs[n].geometry.width + h as real];
    assert VisibleWidths([bs[n]]) == [bs[n].geometry.width];
    SpanGrowsAtEnd(VisibleWidths(init), bs[n].geometry.width, h as real, spacing);
  }

  /** A group whose first button is visible is wider by exactly the horizontal padding when
      the window touches the left screen edge than when it does not, all else equal. */
  lemma {:induction false} LeftEdgeWidensGroup(inp: LayoutInput, groups: Groups)
    requires |groups.left.buttons| > 0 && groups.left.buttons[0].visible
    ensures GroupWidth(UpdateButtonsGeometry(inp.(leftEdge := true), groups).left)
            == GroupWidth(UpdateButtonsGeometry(inp.(leftEdge := false), groups).left) + HorizontalPadding(inp) as real
  {
    var atEdge := inp.(leftEdge := true);
    var awayFromEdge := inp.(leftEdge := false);
    var g := groups.left.(buttons := SizeAll(groups.left.buttons, VerticalOffset(inp)));
    assert VerticalOffset(atEdge) == VerticalOffset(awayFromEdge) == VerticalOffset(inp);
    assert LeftPass(groups.left, atEdge) == LayoutLeft(g, atEdge);
    assert LeftPass(groups.left, awayFromEdge) == LayoutLeft(g, awayFromEdge);
    var widened := LayoutLeft(g, atEdge).buttons;
    var plain := LayoutLeft(g, awayFromEdge).buttons;
    WidenLeadingWidensRow(g.buttons, HorizontalPadding(inp), ButtonSpacing(inp) as real);
    assert GroupWidth(LayoutLeft(g, atEdge)) == Span(VisibleWidths(widened), ButtonSpacing(inp) as real);
    assert GroupWidth(LayoutLeft(g, awayFromEdge)) == Span(VisibleWidths(plain), ButtonSpacing(inp) as real);
  }

  /** A group whose last button is visible is wider by exactly the horizontal padding when
      the window touches the right screen edge than when it does not, all else equal. */
  lemma {:induction false} RightEdgeWidensGroup(inp: LayoutInput, groups: Groups)
    requires |groups.right.buttons| > 0 && groups.right.buttons[|groups.right.buttons| - 1].visible
    ensures GroupWidth(UpdateButtonsGeometry(inp.(rightEdge := true), groups).right)
            == GroupWidth(UpdateButtonsGeometry(inp.(rightEdge := false), groups).right) + HorizontalPadding(inp) as real
  {
    var atEdge := inp.(rightEdge := true);
    var awayFromEdge := inp.(rightEdge := false);
    var g := groups.right.(buttons := SizeAll(groups.right.buttons, VerticalOffset(inp)));
    assert VerticalOffset(atEdge) == VerticalOffset(awayFromEdge) == VerticalOffset(inp);
    assert RightPass(groups.right, atEdge) == LayoutRight(g, atEdge);
    assert RightPass(groups.right, awayFromEdge) == LayoutRight(g, awayFromEdge);
    var widened := LayoutRight(g, atEdge).buttons;
    var plain := LayoutRight(g, awayFromEdge).buttons;
    WidenTrailingWidensRow(g.buttons, HorizontalPadding(inp), ButtonSpacing(inp) as real);
    assert GroupWidth(LayoutRight(g, atEdge)) == Span(VisibleWidths(widened), ButtonSpacing(inp) as real);
    assert GroupWidth(LayoutRight(g, awayFromEdge)) == Span(VisibleWidths(plain), ButtonSpacing(inp) as real);
  }

  /** Sizing a button twice is sizing it once. */
  lemma SizeButtonIdempotent(b: Button, v: int)
    ensures SizeButton(SizeButton(b, v), v) == SizeButton(b, v)
  {
  }

  /** Re-sizing a widened leading button and widening it again reproduces it. */
  lemma RewidenLeadingIsStable(b: Button, v: int, h: int)
    ensures WidenLeading(SizeButton(WidenLeading(SizeButton(b, v), h), v), h) == WidenLeading(SizeButton(b, v), h)
  {
    var s := SizeButton(b, v);
    assert SizeButton(WidenLeading(s, h), v) == s.(flag := FlagFirstInList);
  }

  /** Re-sizing a widened trailing button and widening it again reproduces it. */
  lemma RewidenTrailingIsStable(b: Button, v: int, h: int)
    ensures WidenTrailing(SizeButton(WidenTrailing(SizeButton(b, v), h), v), h) == WidenTrailing(SizeButton(b, v), h)
  {
    var s := SizeButton(b, v);
    assert SizeButton(WidenTrailing(s, h), v) == s.(flag := FlagFirstInList);
  }

  /** Laying out the left group a second time with unchanged inputs changes nothing. */
  lemma {:induction false} LeftPassIdempotent(g: ButtonGroup, inp: LayoutInput)
    ensures LeftPass(LeftPass(g, inp), inp) == LeftPass(g, inp)
  {
    var v := VerticalOffset(inp);
    var h := HorizontalPadding(inp);
    var once := LeftPass(g, inp);
    var twice := LeftPass(once, inp);
    forall i | 0 <= i < |once.buttons|
      ensures twice.buttons[i] == once.buttons[i]
    {
      if inp.leftEdge && i == 0 {
        RewidenLeadingIsStable(g.buttons[i], v, h);
      } else {
        SizeButtonIdempotent(g.buttons[i], v);
      }
    }
    assert twice.buttons == once.buttons;
  }

  /** Laying out the right group a second time with unchanged inputs changes nothing. */
  lemma {:induction false} RightPassIdempotent(g: ButtonGroup, inp: LayoutInput)
    ensures RightPass(RightPass(g, inp), inp) == RightPass(g, inp)
  {
    var v := VerticalOffset(inp);
    var h := HorizontalPadding(inp);
    var once := RightPass(g, inp);
    var twice := RightPass(once, inp);
    forall i | 0 <= i < |once.buttons|
      ensures twice.buttons[i] == once.buttons[i]
    {
      if inp.rightEdge && i == |once.buttons| - 1 {
        RewidenTrailingIsStable(g.buttons[i], v, h);
      } else {
        SizeButtonIdempotent(g.buttons[i], v);
      }
    }
    assert twice.buttons == once.buttons;
  }

  /** Laying out the buttons a second time with unchanged inputs changes nothing. */
  lemma {:induction false} UpdateButtonsGeometryIdempotent(inp: LayoutInput, groups: Groups)
    ensures UpdateButtonsGeometry(inp, UpdateButtonsGeometry(inp, groups)) == UpdateButtonsGeometry(inp, groups)
  {
    LeftPassIdempotent(groups.left, inp);
    RightPassIdempotent(groups.right, inp);
  }
}

=== FILE: caption.dfy ===
/** The caption rectangle and its text alignment, kept clear of the button groups. */
module Caption {
  import opened Geometry
  import opened Settings
  import opened CaptionMetrics
  import opened ButtonLayout

  /** Qt::AlignCenter, Qt::AlignVCenter | Qt::AlignLeft and Qt::AlignVCenter | Qt::AlignRight. */
  datatype TextAlignment = Centered | LeftAligned | RightAligned

  datatype CaptionPlacement = CaptionPlacement(rect: RectF, alignment: TextAlignment)

  /** Where the left group ends (its x plus its width), or 0 when it is empty. */
  function LeftGroupEnd(groups: Groups): real {
    if |groups.left.buttons| == 0 then 0.0 else groups.left.pos.x + GroupWidth(groups.left)
  }

  /** Where the right group starts, or the decoration's right edge when it is empty. */
  function RightGroupStart(groups: Groups, width: real): real {
    if |groups.right.buttons| == 0 then width else groups.right.pos.x
  }

  /** Where the caption may start: one side margin after the left group, snapped. */
  function LeftOffset(groups: Groups, host: HostSettings, m: Metrics, grid: PixelGrid, scale: real): (r: real)
    ensures SnapWithinHalfPixel(grid) ==>
              var bound := LeftGroupEnd(groups) + SideMarginPixels(host.smallSpacing, m) as real;
              var half := grid.pixelSize(scale) / 2.0;
              bound - half <= r <= bound + half
  {
    var left := groups.left;
    var margin := SideMarginPixels(host.smallSpacing, m) as real;
    grid.snap(if |left.buttons| == 0 then margin else left.pos.x + GroupWidth(left) + margin, scale)
  }

  /** How far from the decoration's right edge the caption must end: one side margin before
      the right group, snapped. */
  function RightOffset(groups: Groups, width: real, host: HostSettings, m: Metrics, grid: PixelGrid, scale: real): (r: real)
    ensures SnapWithinHalfPixel(grid) ==>
              var bound := RightGroupStart(groups, width) - SideMarginPixels(host.smallSpacing, m) as real;
              var half := grid.pixelSize(scale) / 2.0;
              bound - half <= width - r <= bound + half
  {
    var right := groups.right;
    var margin := SideMarginPixels(host.smallSpacing, m) as real;
    grid.snap(if |right.buttons| == 0 then margin else width - right.pos.x + margin, scale)
  }

  /** The text, `textWidth` wide and centred on the whole width, stays between the offsets. */
  predicate CentredTextFits(width: real, textWidth: int, leftOffset: real, rightOffset: real) {
    var textLeft := (width - textWidth as real) / 2.0;
    leftOffset <= textLeft && textLeft + textWidth as real <= width - rightOffset
  }

  /** The alignment switch, once the offsets are known. Left, Right and Center use the
      rectangle between the offsets; CenterFullWidth (also the choice for any unrecognised
      setting) centres on the whole width when the text fits there, and otherwise falls back
      to the rectangle between the offsets, left-aligned when the text would run into the
      left offset and right-aligned when it would run past the right one. */
  function PlaceCaption(policy: TitleAlignment, width: real, textWidth: int,
                        leftOffset: real, rightOffset: real, yOffset: real, height: int): (r: CaptionPlacement)
    ensures var inset := RectF(leftOffset, yOffset, width - leftOffset - rightOffset, height as real);
            && (r.alignment != Centered || policy.AlignCenter? ==>
                  r.rect.x == leftOffset && r.rect.Right() == width - rightOffset)
            && (policy.AlignLeft? ==> r == CaptionPlacement(inset, LeftAligned))
            && (policy.AlignRight? ==> r == CaptionPlacement(inset, RightAligned))
            && (policy.AlignCenter? ==> r == CaptionPlacement(inset, Centered))
            && (policy.AlignCenterFullWidth? || policy.AlignUnrecognised? ==>
                  && (r.alignment == Centered <==> CentredTextFits(width, textWidth, leftOffset, rightOffset))
                  && (r.alignment == Centered ==>
                        r.rect == RectF(0.0, Trunc(yOffset) as real, Trunc(width) as real, height as real))
                  && (r.alignment != Centered ==> r.rect == inset)
                  && (r.alignment == LeftAligned <==> (width - textWidth as real) / 2.0 < leftOffset))
  {
    var maxRect := RectF(leftOffset, yOffset, width - leftOffset - rightOffset, height as real);
    match policy
    case AlignLeft => CaptionPlacement(maxRect, LeftAligned)
    case AlignRight => CaptionPlacement(maxRect, RightAligned)
    case AlignCenter => CaptionPlacement(maxRect, Centered)
    case _ =>
      var fullRect := RectF(0.0, Trunc(yOffset) as real, Trunc(width) as real, height as real);
      var bounding := RectF((width - textWidth as real) / 2.0, yOffset, textWidth as real, height as real);
      if bounding.x < leftOffset then CaptionPlacement(maxRect, LeftAligned)
      else if bounding.Right() > width - rightOffset then CaptionPlacement(maxRect, RightAligned)
      else CaptionPlacement(fullRect, Centered)
  }

  /** Decoration::captionRect(): an empty centred rectangle when the title bar is hidden;
      otherwise the placement for the configured alignment across the decoration's width
      `size.width`, between offsets derived from the button groups, one caption height high. */
  function CaptionRect(w: WindowState, host: HostSettings, theme: ThemeSettings, m: Metrics, grid: PixelGrid,
                       groups: Groups, size: SizeF, borderTop: real, textWidth: int): (r: CaptionPlacement)
    ensures w.hideTitleBar ==> r == CaptionPlacement(EmptyRect, Centered)
    ensures !w.hideTitleBar ==> r.rect.height == ButtonSize(theme.buttonSize, host.gridUnit) as real
    // under a snap to the nearest pixel, the caption stays clear of both button groups by a
    // side margin, less at most half a pixel of rounding on each side
    ensures !w.hideTitleBar && SnapWithinHalfPixel(grid) ==>
              var margin := SideMarginPixels(host.smallSpacing, m) as real;
              var half := grid.pixelSize(w.scale) / 2.0;
              var lo := LeftGroupEnd(groups) + margin - half;
              var hi := RightGroupStart(groups, size.width) - margin + half;
              var fullWidthPolicy := theme.titleAlignment.AlignCenterFullWidth? || theme.titleAlignment.AlignUnrecognised?;
              var textLeft := (size.width - textWidth as real) / 2.0;
              && (!fullWidthPolicy || r.alignment != Centered ==> lo <= r.rect.x && r.rect.Right() <= hi)
              && (fullWidthPolicy && r.alignment == Centered ==>
                    && r.rect.x == 0.0 && r.rect.width == Trunc(size.width) as real
                    && lo <= textLeft && textLeft + textWidth as real <= hi)
  {
    if w.hideTitleBar then CaptionPlacement(EmptyRect, Centered)
    else
      var leftOffset := LeftOffset(groups, host, m, grid, w.scale);
      var rightOffset := RightOffset(groups, size.width, host, m, grid, w.scale);
      var yOffset := grid.snap(TopMarginPixels(host.smallSpacing, m) as real, w.scale);
      PlaceCaption(theme.titleAlignment, size.width, textWidth, leftOffset, rightOffset, yOffset,
                   CaptionHeight(w.hideTitleBar, borderTop, ButtonSize(theme.buttonSize, host.gridUnit)))
  }

  /** With equal offsets on both sides, a centred caption falls back exactly when the text is
      wider than the space between the offsets, and then always to left alignment. */
  lemma {:induction false} SymmetricOffsetsFallBackLeft(policy: TitleAlignment, width: real, textWidth: int,
                                                         offset: real, yOffset: real, height: int)
    requires policy.AlignCenterFullWidth? || policy.AlignUnrecognised?
    ensures var r := PlaceCaption(policy, width, textWidth, offset, offset, yOffset, height);
            && (r.alignment == Centered <==> textWidth as real <= width - 2.0 * offset)
            && (r.alignment != Centered ==> r.alignment == LeftAligned)
  {
    var textLeft := (width - textWidth as real) / 2.0;
    assert offset <= textLeft <==> textWidth as real <= width - 2.0 * offset;
    assert textLeft + textWidth as real <= width - offset <==> textWidth as real <= width - 2.0 * offset;
  }
}

=== FILE: caption_metrics.dfy ===
/** The button size per preset and the caption height: Decoration::buttonSize() and
    Decoration::captionHeight(), which the borders and the caption read. */
module CaptionMetrics {
  import opened Geometry
  import opened Settings

  /** Twice the grid unit's halves each preset stands for. */
  function HalfUnits(p: ButtonSizePreset): nat {
    match p
    case ButtonTiny => 2
    case ButtonSmall => 3
    case ButtonDefault => 4
    case ButtonSizeUnrecognised => 4
    case ButtonLarge => 5
    case ButtonVeryLarge => 7
  }

  /** Half of a natural number, as a real, rounds down to the integer quotient. */
  lemma HalfFloor(m: nat)
    ensures (m as real / 2.0).Floor == m / 2
  {
    var q, rem := m / 2, m % 2;
    assert m as real / 2.0 == q as real + rem as real / 2.0;
  }

  /** `k * n` halved as a double and converted back to int: the quotient truncated toward zero. */
  lemma {:induction false} TruncHalves(n: int, k: nat)
    ensures n >= 0 ==> Trunc(n as real * (k as real / 2.0)) == k * n / 2
    ensures n < 0 ==> Trunc(n as real * (k as real / 2.0)) == -(k * -n / 2)
  {
    if n >= 0 {
      var m: nat := k * n;
      HalfFloor(m);
      assert n as real * (k as real / 2.0) == m as real / 2.0;
    } else {
      var m: nat := k * -n;
      HalfFloor(m);
      assert n as real * (k as real / 2.0) == -(m as real / 2.0);
    }
  }

  /** Decoration::buttonSize(): the preset scaled onto the framework's grid unit. */
  function ButtonSize(p: ButtonSizePreset, gridUnit: int): (r: int)
    ensures gridUnit >= 0 ==> r == HalfUnits(p) * gridUnit / 2
    ensures gridUnit < 0 ==> r == -(HalfUnits(p) * -gridUnit / 2)
  {
    match p
    case ButtonTiny => gridUnit
    case ButtonSmall => TruncHalves(gridUnit, 3); Trunc(gridUnit as real * 1.5)
    case ButtonDefault => gridUnit * 2
    case ButtonSizeUnrecognised => gridUnit * 2
    case ButtonLarge => TruncHalves(gridUnit, 5); Trunc(gridUnit as real * 2.5)
    case ButtonVeryLarge => TruncHalves(gridUnit, 7); Trunc(gridUnit as real * 3.5)
  }

  /** On a non-negative grid unit a larger preset never gives a smaller button, and every
      button is at least one grid unit. */
  lemma {:induction false} ButtonSizeMonotone(p: ButtonSizePreset, q: ButtonSizePreset, gridUnit: int)
    requires p.Recognised() && q.Recognised() && p.Rank() <= q.Rank()
    requires gridUnit >= 0
    ensures gridUnit <= ButtonSize(p, gridUnit) <= ButtonSize(q, gridUnit)
  {
    assert HalfUnits(p) <= HalfUnits(q);
    assert HalfUnits(p) * gridUnit <= HalfUnits(q) * gridUnit;
    assert 2 * gridUnit <= HalfUnits(p) * gridUnit;
  }

  /** Decoration::captionHeight(): the top border (an int-truncated length) when the title
      bar is hidden, the button size otherwise. */
  function CaptionHeight(hideTitleBar: bool, borderTop: real, buttonSize: int): (r: int)
    ensures !hideTitleBar ==> r == buttonSize
    ensures hideTitleBar && borderTop >= 0.0 ==> r as real <= borderTop < r as real + 1.0
  {
    if hideTitleBar then Trunc(borderTop) else buttonSize
  }
}

=== FILE: decoration_state.dfy ===
/** Animation direction and running state, shared by the decoration and its buttons. */
module Animations {

  datatype Direction = Forward | Backward

  /** What the model keeps of a QVariantAnimation: its direction and whether it runs. */
  datatype Animation = Animation(direction: Direction, running: bool)

  /** setDirection(d), then start() unless the animation already runs. */
  function Drive(a: Animation, d: Direction): (r: Animation)
    ensures r.running && r.direction == d
    ensures a.running ==> r == a.(direction := d)
  {
    var redirected := a.(direction := d);
    if redirected.running then redirected else redirected.(running := true)
  }
}

/** The decoration's own state updates: the opacity driven by its animation and the
    reaction to an active-state change. */
module DecorationState {
  import opened Animations

  datatype OpacityUpdate = OpacityUpdate(opacity: real, repaint: bool)

  /** Decoration::setOpacity(value): stores the value and asks for a repaint, unless the
      value is already current. */
  function SetOpacity(current: real, value: real): (r: OpacityUpdate)
    ensures r.opacity == value
    ensures r.repaint <==> current != value
  {
    if current == value then OpacityUpdate(current, false) else OpacityUpdate(value, true)
  }

  /** Setting the same opacity a second time changes nothing and asks for no repaint. */
  lemma SetOpacitySettles(current: real, value: real)
    ensures var once := SetOpacity(current, value);
            SetOpacity(once.opacity, value) == OpacityUpdate(once.opacity, false)
  {
  }

  datatype AnimationUpdate = AnimationUpdate(animation: Animation, repaint: bool)

  /** Decoration::updateAnimationState(): with animations enabled, run the animation toward
      the active look (forward) or the inactive look (backward); otherwise just repaint. */
  function UpdateDecorationAnimation(animationsEnabled: bool, active: bool, a: Animation): (r: AnimationUpdate)
    ensures animationsEnabled ==>
              && r.animation.running && !r.repaint
              && (r.animation.direction == Forward <==> active)
    ensures !animationsEnabled ==> r.animation == a && r.repaint
  {
    if animationsEnabled then AnimationUpdate(Drive(a, if active then Forward else Backward), false)
    else AnimationUpdate(a, true)
  }

  /** A repeated active-state notification leaves the animation as the first one left it,
      and asks for a repaint again exactly when animations are off. */
  lemma UpdateDecorationAnimationSettles(animationsEnabled: bool, active: bool, a: Animation)
    ensures var once := UpdateDecorationAnimation(animationsEnabled, active, a);
            var twice := UpdateDecorationAnimation(animationsEnabled, active, once.animation);
            twice == once
  {
  }
}

=== FILE: geometry.dfy ===
/** Value types standing in for Qt's QPointF, QSizeF, QRectF and QMarginsF,
    and the C++ conversions the decoration relies on. */
module Geometry {

  datatype PointF = PointF(x: real, y: real)

  datatype SizeF = SizeF(width: real, height: real)

  datatype Margins = Margins(left: real, top: real, right: real, bottom: real)

  /** A rectangle given by its top-left corner and its size, as QRectF keeps it. */
  datatype RectF = RectF(x: real, y: real, width: real, height: real) {

    /** QRectF::right(): the x coordinate just past the rectangle. */
    function Right(): real { x + width }

    function Bottom(): real { y + height }

    /** QRectF::adjusted: moves the left, top, right and bottom edges by the given amounts. */
    function Adjusted(dx1: real, dy1: real, dx2: real, dy2: real): (r: RectF)
      ensures r.x == x + dx1 && r.y == y + dy1
      ensures r.Right() == Right() + dx2 && r.Bottom() == Bottom() + dy2
    {
      RectF(x + dx1, y + dy1, width - dx1 + dx2, height - dy1 + dy2)
    }

    /** Every point of `inner` is a point of this rectangle. */
    predicate Encloses(inner: RectF) {
      x <= inner.x && y <= inner.y && inner.Right() <= Right() && inner.Bottom() <= Bottom()
    }
  }

  /** QRect(): the null rectangle, which QRectF reads as zero-sized at the origin. */
  const EmptyRect := RectF(0.0, 0.0, 0.0, 0.0)

  /** The implicit C++ conversion from double to int, which truncates toward zero
      (overflow of the int range is not modelled). */
  function Trunc(x: real): (n: int)
    ensures x >= 0.0 ==> n >= 0 && n as real <= x < n as real + 1.0
    ensures x < 0.0 ==> n <= 0 && n as real - 1.0 < x <= n as real
  {
    if x >= 0.0 then x.Floor else -((-x).Floor)
  }

  function Max(a: real, b: real): (r: real)
    ensures r >= a && r >= b && (r == a || r == b)
  {
    if a >= b then a else b
  }
}

=== FILE: scenarios.dfy ===
/** Worked examples of the model on concrete inputs at scale 1. */
module Scenarios {
  import opened Geometry
  import opened Settings
  import opened Borders
  import opened CaptionMetrics
  import opened Buttons
  import opened ButtonLayout
  import opened Caption
  import opened Shapes
  import opened TitleBar

  /** The pixel grid at scale 1: snapping rounds to the nearest whole pixel, a pixel is 1. */
  const UnitScaleGrid := PixelGrid((v: real, s: real) => (v + 0.5).Floor as real, (s: real) => 1.0)

  const ExampleMetrics := Metrics(1, 2, 1, 1)

  const ExampleHost := HostSettings(BorderNormal, 4, 8, 12, 14, true)

  const ExampleTheme := ThemeSettings(false, BorderNormal, ButtonDefault, AlignCenterFullWidth, 3, true, false)

  const ExampleWindow := WindowState(400.0, 300.0, 1.0, 1.0, true, false, false, false, false,
                                     false, false, false, false, false, false)

  /** Normal preset, small spacing 4: the base unit is 4 and the side and bottom borders 8. */
  lemma NormalPresetBorders()
    ensures BaseUnit(ExampleHost, UnitScaleGrid, 1.0) == 4.0
    ensures BorderSize(Some(ExampleTheme), ExampleHost, UnitScaleGrid, false, 1.0) == 8.0
    ensures BorderSize(Some(ExampleTheme), ExampleHost, UnitScaleGrid, true, 1.0) == 8.0
  {
  }

  /** Font height 14, button size 24 (grid unit 12, default preset), small spacing 4, bottom
      margin 2: the top border is 24 + 16 = 40. */
  lemma TopBorderOfVisibleTitleBar()
    ensures ButtonSize(ButtonDefault, 12) == 24
    ensures RecalculateBorders(ExampleWindow, ExampleHost, ExampleTheme, ExampleMetrics, UnitScaleGrid).borders.top == 40.0
  {
  }

  /** The bottom border is not monotone in the preset: with a base unit of 1 the Tiny
      preset's snapped minimum of 4 exceeds the Normal preset's 2. */
  lemma BottomBorderNotMonotone()
    ensures PresetBorderSize(BorderTiny, true, 1.0, UnitScaleGrid, 1.0) == 4.0
    ensures PresetBorderSize(BorderNormal, true, 1.0, UnitScaleGrid, 1.0) == 2.0
  {
  }

  /** A 100-wide caption centred in a 400-wide window spans 150..250, inside the offsets
      40 and 360: the full-width rectangle is used, centred. */
  lemma ShortCaptionCentredOnFullWidth()
    ensures PlaceCaption(AlignCenterFullWidth, 400.0, 100, 40.0, 40.0, 2.0, 24)
            == CaptionPlacement(RectF(0.0, 2.0, 400.0, 24.0), Centered)
  {
  }

  /** A 340-wide caption would span 30..370 and start before the left offset 40: it falls
      back to the inset rectangle, left-aligned. */
  lemma LongCaptionFallsBackLeft()
    ensures PlaceCaption(AlignCenterFullWidth, 400.0, 340, 40.0, 40.0, 2.0, 24)
            == CaptionPlacement(RectF(40.0, 2.0, 320.0, 24.0), LeftAligned)
  {
  }

  /** A spacer away from every screen edge is 12 wide and 24 high, but its icon size is
      recorded as 24 wide and 12 high: height and width are swapped. */
  lemma SpacerIconSizeIsSwapped()
    ensures var b := Create(Spacer, Some(GlassDeco(24, true, false, true)),
                            Capabilities(true, true, true, true, true)).value;
            var sized := SizeButton(b, 0);
            && sized.geometry == RectF(0.0, 0.0, 12.0, 24.0)
            && sized.iconSize == SizeF(24.0, 12.0)
  {
  }

  /** The caption and the title rectangle span the decoration, not the window: a 400-wide
      window with 8-pixel side borders is a 416-wide decoration, across which a 100-wide
      caption is centred at 158..258. */
  lemma DecorationWidthCentresCaption()
    ensures var b := RecalculateBorders(ExampleWindow, ExampleHost, ExampleTheme, ExampleMetrics, UnitScaleGrid).borders;
            && DecorationSize(ExampleWindow, b).width == 416.0
            && TitleRect(DecorationSize(ExampleWindow, b), b.top).width == 416.0
    ensures PlaceCaption(AlignCenterFullWidth, 416.0, 100, 40.0, 40.0, 2.0, 24)
            == CaptionPlacement(RectF(0.0, 2.0, 416.0, 24.0), Centered)
  {
    NormalPresetBorders();
  }

  /** At scale 1 the snap rounds to the nearest pixel, so the caption's clearance of the
      buttons holds for this grid with half a pixel of slack. */
  lemma UnitScaleGridSnapsToNearest()
    ensures SnapWithinHalfPixel(UnitScaleGrid)
  {
  }

  /** The title bar is placed on the window's own width in decoration coordinates: with side
      margin 4 it spans 4..396, symmetric about 200, while the window itself spans 8..408 of
      the 416-wide decoration. */
  lemma TitleBarSymmetricAboutHalfWindowWidth()
    ensures var b := RecalculateBorders(ExampleWindow, ExampleHost, ExampleTheme, ExampleMetrics, UnitScaleGrid).borders;
            var bar := UpdateTitleBar(ExampleWindow, ExampleHost, ExampleMetrics, b.top);
            && bar.x == 4.0 && bar.Right() == 396.0
            && b.left == 8.0 && b.left + ExampleWindow.width == 408.0
  {
    NormalPresetBorders();
  }
}

=== FILE: settings.dfy ===
/** The inputs the decoration reads from its host and from its own configuration:
    presets, the metrics constants, the pixel-grid helpers, and the window's state. */
module Settings {

  datatype Option<T> = None | Some(value: T)

  /** Border-size presets in their declared order. The theme's own enum and the
      framework's enum have the same members in the same order, so one type serves
      both; BorderUnrecognised is any other value, which reaches the `default:` label. */
  datatype BorderPreset =
    | BorderNone | BorderNoSides | BorderTiny | BorderNormal | BorderLarge
    | BorderVeryLarge | BorderHuge | BorderVeryHuge | BorderOversized
    | BorderUnrecognised
  {
    predicate Recognised() { !BorderUnrecognised? }

    /** Position in the declared order None < NoSides < ... < Oversized. */
    function Rank(): nat
      requires Recognised()
    {
      match this
      case BorderNone => 0
      case BorderNoSides => 1
      case BorderTiny => 2
      case BorderNormal => 3
      case BorderLarge => 4
      case BorderVeryLarge => 5
      case BorderHuge => 6
      case BorderVeryHuge => 7
      case BorderOversized => 8
    }
  }

  datatype ButtonSizePreset =
    ButtonTiny | ButtonSmall | ButtonDefault | ButtonLarge | ButtonVeryLarge | ButtonSizeUnrecognised
  {
    predicate Recognised() { !ButtonSizeUnrecognised? }

    function Rank(): nat
      requires Recognised()
    {
      match this
      case ButtonTiny => 0
      case ButtonSmall => 1
      case ButtonDefault => 2
      case ButtonLarge => 3
      case ButtonVeryLarge => 4
    }
  }

  datatype TitleAlignment =
    AlignLeft | AlignRight | AlignCenter | AlignCenterFullWidth | AlignUnrecognised

  datatype ShadowSize =
    ShadowNone | ShadowSmall | ShadowMedium | ShadowLarge | ShadowVeryLarge | ShadowUnrecognised

  /** The Metrics::TitleBar_* constants, declared in a header that is not part of this model. */
  datatype Metrics = Metrics(
    titleBarTopMargin: int,
    titleBarBottomMargin: int,
    titleBarSideMargin: int,
    titleBarButtonSpacing: int)

  /** The title bar's side margin in pixels: the small spacing times TitleBar_SideMargin. */
  function SideMarginPixels(smallSpacing: int, m: Metrics): int {
    smallSpacing * m.titleBarSideMargin
  }

  /** The title bar's top margin in pixels: the small spacing times TitleBar_TopMargin. */
  function TopMarginPixels(smallSpacing: int, m: Metrics): int {
    smallSpacing * m.titleBarTopMargin
  }

  /** The framework's snapToPixelGrid(value, scale) and pixelSize(scale), taken as given functions. */
  datatype PixelGrid = PixelGrid(snap: (real, real) -> real, pixelSize: real -> real)

  /** Snapping never turns a non-negative length negative. */
  ghost predicate SnapKeepsSign(grid: PixelGrid) {
    forall v: real, s: real :: v >= 0.0 ==> grid.snap(v, s) >= 0.0
  }

  /** Snapping rounds to the nearest device pixel: it moves a value by at most half a pixel
      either way. */
  ghost predicate SnapWithinHalfPixel(grid: PixelGrid) {
    forall v: real, s: real :: v - grid.pixelSize(s) / 2.0 <= grid.snap(v, s) <= v + grid.pixelSize(s) / 2.0
  }

  /** What the framework's decoration settings report. */
  datatype HostSettings = HostSettings(
    borderSize: BorderPreset,
    smallSpacing: int,
    largeSpacing: int,
    gridUnit: int,
    fontHeight: int,
    alphaChannelSupported: bool)

  /** The theme's own settings object; `maskHasBorderSize` is whether its mask contains BorderSize. */
  datatype ThemeSettings = ThemeSettings(
    maskHasBorderSize: bool,
    borderSize: BorderPreset,
    buttonSize: ButtonSizePreset,
    titleAlignment: TitleAlignment,
    cornerRadius: int,
    animationsEnabled: bool,
    outlineCloseButton: bool)

  /** The decorated window as the decoration queries it: `width` and `height` are the
      window's own size, without the decoration's borders. `maximized`, the edge flags,
      `hideTitleBar`, `noBorders` and `noSideBorders` are the header's inline predicates. */
  datatype WindowState = WindowState(
    width: real,
    height: real,
    scale: real,
    nextScale: real,
    active: bool,
    maximized: bool,
    maximizedHorizontally: bool,
    maximizedVertically: bool,
    shaded: bool,
    topEdge: bool,
    leftEdge: bool,
    rightEdge: bool,
    hideTitleBar: bool,
    noBorders: bool,
    noSideBorders: bool)
}

=== FILE: shadow.dfy ===
/** The shadow parameter table and its lookup by shadow-size setting. */
module Shadow {
  import opened Settings

  datatype Point = Point(x: int, y: int)

  datatype ShadowParams = ShadowParams(offset: Point, radius: int, opacity: real)

  /** Two stacked shadows and a common offset. */
  datatype CompositeShadowParams = CompositeShadowParams(offset: Point, shadow1: ShadowParams, shadow2: ShadowParams)

  /** CompositeShadowParams::isNone(): the larger of the two radii is zero, which is
      neither radius positive and at least one of them zero. */
  function IsNone(p: CompositeShadowParams): (b: bool)
    ensures b <==> p.shadow1.radius <= 0 && p.shadow2.radius <= 0 && (p.shadow1.radius == 0 || p.shadow2.radius == 0)
  {
    (if p.shadow1.radius >= p.shadow2.radius then p.shadow1.radius else p.shadow2.radius) == 0
  }

  /** A default-constructed ShadowParams. */
  const NoShadow := ShadowParams(Point(0, 0), 0, 0.0)

  /** The table, one row per size from None to Very large. */
  const ShadowTable: seq<CompositeShadowParams> := [
    CompositeShadowParams(Point(0, 0), NoShadow, NoShadow),
    CompositeShadowParams(Point(0, 4), ShadowParams(Point(0, 0), 16, 1.0), ShadowParams(Point(0, -2), 8, 0.4)),
    CompositeShadowParams(Point(0, 8), ShadowParams(Point(0, 0), 32, 0.9), ShadowParams(Point(0, -4), 16, 0.3)),
    CompositeShadowParams(Point(0, 12), ShadowParams(Point(0, 0), 48, 0.8), ShadowParams(Point(0, -6), 24, 0.2)),
    CompositeShadowParams(Point(0, 16), ShadowParams(Point(0, 0), 64, 0.7), ShadowParams(Point(0, -8), 32, 0.1))
  ]

  /** The table row of each recognised size. */
  function ShadowRow(size: ShadowSize): nat
    requires !size.ShadowUnrecognised?
  {
    match size
    case ShadowNone => 0
    case ShadowSmall => 1
    case ShadowMedium => 2
    case ShadowLarge => 3
    case ShadowVeryLarge => 4
  }

  /** lookupShadowParams(size): the row of a recognised size; an unrecognised one falls back
      to the Large row. Only the None size yields parameters that draw no shadow. */
  function LookupShadowParams(size: ShadowSize): (r: CompositeShadowParams)
    ensures !size.ShadowUnrecognised? ==> r == ShadowTable[ShadowRow(size)]
    ensures size.ShadowUnrecognised? ==> r == ShadowTable[3]
    ensures IsNone(r) <==> size.ShadowNone?
  {
    match size
    case ShadowNone => ShadowTable[0]
    case ShadowSmall => ShadowTable[1]
    case ShadowMedium => ShadowTable[2]
    case ShadowLarge => ShadowTable[3]
    case ShadowVeryLarge => ShadowTable[4]
    case ShadowUnrecognised => ShadowTable[3]
  }

  /** A larger size gives both shadows a strictly larger radius and a larger offset. */
  lemma ShadowGrowsWithSize(a: ShadowSize, b: ShadowSize)
    requires !a.ShadowUnrecognised? && !b.ShadowUnrecognised? && ShadowRow(a) < ShadowRow(b)
    ensures LookupShadowParams(a).shadow1.radius < LookupShadowParams(b).shadow1.radius
    ensures LookupShadowParams(a).shadow2.radius < LookupShadowParams(b).shadow2.radius
    ensures LookupShadowParams(a).offset.y < LookupShadowParams(b).offset.y
  {
  }
}

=== FILE: shapes.dfy ===
/** The title-bar and window outlines, kept as shape tags rather than painter paths. */
module Shapes {
  import opened Geometry
  import opened Settings
  import opened Borders
  import opened TitleBar

  /** A plain rectangle; a rectangle with all four corners rounded; or a rounded rectangle
      clipped to a plain one, so that only the corners the clip leaves in place show rounded. */
  datatype Shape =
    | PlainRect(rect: RectF)
    | RoundedRect(rect: RectF, radius: int)
    | RoundedClipped(rounded: RectF, radius: int, clip: RectF)

  datatype DecorationShapes = DecorationShapes(titleRect: RectF, titleBar: Shape, window: Shape)

  /** The title rectangle built from a QPoint and a QSize: the decoration's width and the
      top border, each converted to int. */
  function TitleRect(size: SizeF, borderTop: real): (r: RectF)
    ensures r.x == 0.0 && r.y == 0.0
    ensures r.width == r.width.Floor as real && r.height == r.height.Floor as real
    ensures size.width >= 0.0 ==> r.width <= size.width < r.width + 1.0
    ensures size.width < 0.0 ==> r.width - 1.0 < size.width <= r.width
    ensures borderTop >= 0.0 ==> r.height <= borderTop < r.height + 1.0
    ensures borderTop < 0.0 ==> r.height - 1.0 < borderTop <= r.height
  {
    RectF(0.0, 0.0, Trunc(size.width) as real, Trunc(borderTop) as real)
  }

  /** The title rectangle, drawn across the decoration, ends where the title bar handed to
      the framework ends, up to the int conversion, and reaches to within a pixel of its
      right end. */
  lemma TitleRectCoversTitleBar(w: WindowState, host: HostSettings, m: Metrics, b: Margins)
    requires b.left >= 0.0 && b.right >= 0.0 && b.top >= 0.0 && w.width >= 0.0
    requires SideMarginPixels(host.smallSpacing, m) >= 0
    ensures var tr := TitleRect(DecorationSize(w, b), b.top);
            var tb := UpdateTitleBar(w, host, m, b.top);
            && tr.Bottom() <= tb.Bottom() < tr.Bottom() + 1.0
            && tb.Right() < tr.Right() + 1.0
  {
    var size := DecorationSize(w, b);
    assert size.width >= w.width;
  }

  /** The rectangle that is rounded and then clipped: pushed out by the radius on the sides
      at a screen edge and always at the bottom, so those corners fall outside the clip. */
  function ExpandedTitleRect(w: WindowState, radius: int, titleRect: RectF): RectF {
    var r := radius as real;
    titleRect.Adjusted(if w.leftEdge then -r else 0.0, if w.topEdge then -r else 0.0,
                       if w.rightEdge then r else 0.0, r)
  }

  /** The title bar's outline: the plain title rectangle for a maximized window or without
      an alpha channel; the title rectangle with every corner rounded for a shaded window;
      otherwise the expanded rectangle rounded and clipped back to the title rectangle. */
  function TitleBarShape(w: WindowState, alphaChannelSupported: bool, radius: int, titleRect: RectF): (s: Shape)
    ensures s.PlainRect? <==> w.maximized || !alphaChannelSupported
    ensures s.RoundedRect? <==> !w.maximized && alphaChannelSupported && w.shaded
    ensures (s.PlainRect? || s.RoundedRect?) ==> s.rect == titleRect
    ensures s.RoundedRect? ==> s.radius == radius
    ensures s.RoundedClipped? ==> s.clip == titleRect && s.radius == radius
    ensures s.RoundedClipped? && radius >= 0 ==> s.rounded.Encloses(s.clip)
  {
    if w.maximized || !alphaChannelSupported then PlainRect(titleRect)
    else if w.shaded then RoundedRect(titleRect, radius)
    else RoundedClipped(ExpandedTitleRect(w, radius, titleRect), radius, titleRect)
  }

  /** Decoration::calculateWindowAndTitleBarShapes(windowShapeOnly), on the decoration's
      size (the window with its borders). The title bar is
      recomputed unless only the window shape was asked for on an unshaded window; a
      shaded window's outline is the title bar's outline. */
  function CalculateShapes(prev: DecorationShapes, windowShapeOnly: bool, w: WindowState,
                           host: HostSettings, theme: ThemeSettings, size: SizeF, borderTop: real): (r: DecorationShapes)
    ensures w.shaded ==> r.window == r.titleBar
    ensures !windowShapeOnly || w.shaded ==>
              && r.titleRect == TitleRect(size, borderTop)
              && r.titleBar == TitleBarShape(w, host.alphaChannelSupported, theme.cornerRadius, r.titleRect)
    ensures windowShapeOnly && !w.shaded ==> r.titleRect == prev.titleRect && r.titleBar == prev.titleBar
    ensures !w.shaded ==> r.window.RoundedRect? == (host.alphaChannelSupported && !w.maximized)
    ensures !w.shaded ==> r.window.PlainRect? == !(host.alphaChannelSupported && !w.maximized)
    ensures !w.shaded ==>
              (r.window.PlainRect? || r.window.RoundedRect?) && r.window.rect == RectF(0.0, 0.0, size.width, size.height)
    ensures !w.shaded && r.window.RoundedRect? ==> r.window.radius == theme.cornerRadius
  {
    var recompute := !windowShapeOnly || w.shaded;
    var titleRect := if recompute then TitleRect(size, borderTop) else prev.titleRect;
    var titleBar :=
      if recompute then TitleBarShape(w, host.alphaChannelSupported, theme.cornerRadius, titleRect)
      else prev.titleBar;
    var full := RectF(0.0, 0.0, size.width, size.height);
    var window :=
      if !w.shaded then
        (if host.alphaChannelSupported && !w.maximized then RoundedRect(full, theme.cornerRadius) else PlainRect(full))
      else titleBar;
    DecorationShapes(titleRect, titleBar, window)
  }

  /** The clip leaves the top-left rounding in place: the rounded rectangle's corner is the clip's. */
  predicate TopLeftRounded(s: Shape)
    requires s.RoundedClipped?
  {
    s.rounded.x == s.clip.x && s.rounded.y == s.clip.y
  }

  predicate TopRightRounded(s: Shape)
    requires s.RoundedClipped?
  {
    s.rounded.Right() == s.clip.Right() && s.rounded.y == s.clip.y
  }

  /** The bottom corners are always cut away: the rounded rectangle reaches below the clip. */
  predicate BottomCornersClipped(s: Shape)
    requires s.RoundedClipped?
  {
    s.rounded.Bottom() > s.clip.Bottom()
  }

  /** On a normal, unshaded window with a positive radius, a top corner of the title bar is
      rounded exactly when neither of the two screen edges meeting there is adjacent. */
  lemma ClippedTitleBarCorners(w: WindowState, host: HostSettings, theme: ThemeSettings, size: SizeF, borderTop: real)
    requires !w.maximized && !w.shaded && host.alphaChannelSupported && theme.cornerRadius > 0
    ensures var s := CalculateShapes(DecorationShapes(EmptyRect, PlainRect(EmptyRect), PlainRect(EmptyRect)),
                                     false, w, host, theme, size, borderTop).titleBar;
            && s.RoundedClipped?
            && (TopLeftRounded(s) <==> !w.leftEdge && !w.topEdge)
            && (TopRightRounded(s) <==> !w.rightEdge && !w.topEdge)
            && BottomCornersClipped(s)
  {
  }

  /** A shaded window with rounding available is drawn as one rounded rectangle the size of
      the title rectangle. */
  lemma ShadedWindowIsRoundedTitle(prev: DecorationShapes, windowShapeOnly: bool, w: WindowState,
                                   host: HostSettings, theme: ThemeSettings, size: SizeF, borderTop: real)
    requires w.shaded && !w.maximized && host.alphaChannelSupported
    ensures CalculateShapes(prev, windowShapeOnly, w, host, theme, size, borderTop).window
            == RoundedRect(TitleRect(size, borderTop), theme.cornerRadius)
  {
  }
}

=== FILE: titlebar.dfy ===
/** The draggable title-bar rectangle the decoration hands to the framework. */
module TitleBar {
  import opened Geometry
  import opened Settings

  /** Decoration::updateTitleBar(). The rectangle is in decoration coordinates, where the
      window runs from borderLeft to borderLeft + width, but it is measured on the window's
      own width alone. A maximized window spans x = 0 to width; a maximized window or one at
      the screen's top edge starts at y = 0. Whatever the flags, the rectangle is symmetric
      about width / 2, which lies borderLeft short of the window's centre, and it ends at
      the top border. */
  function UpdateTitleBar(w: WindowState, host: HostSettings, m: Metrics, borderTop: real): (r: RectF)
    ensures w.maximized ==> r.x == 0.0 && r.width == w.width
    ensures !w.maximized ==>
              && r.x == SideMarginPixels(host.smallSpacing, m) as real
              && r.Right() == w.width - SideMarginPixels(host.smallSpacing, m) as real
    ensures (w.maximized || w.topEdge) ==> r.y == 0.0 && r.height == borderTop
    ensures !(w.maximized || w.topEdge) ==> r.y == TopMarginPixels(host.smallSpacing, m) as real
    ensures r.x + r.Right() == w.width
    ensures r.Bottom() == borderTop
  {
    var side := SideMarginPixels(host.smallSpacing, m);
    var top := TopMarginPixels(host.smallSpacing, m);
    var maximized := w.maximized;
    var width := if maximized then w.width else w.width - (2 * side) as real;
    var height := if maximized || w.topEdge then borderTop else borderTop - top as real;
    var x := if maximized then 0.0 else side as real;
    var y := if maximized || w.topEdge then 0.0 else top as real;
    RectF(x, y, width, height)
  }

  /** With non-negative insets that fit in the window's width, the title bar lies inside the
      rectangle from the decoration's origin, as wide as the window and as high as the top
      border. */
  lemma TitleBarInsideTopBand(w: WindowState, host: HostSettings, m: Metrics, borderTop: real)
    requires SideMarginPixels(host.smallSpacing, m) >= 0 && TopMarginPixels(host.smallSpacing, m) >= 0
    requires (2 * SideMarginPixels(host.smallSpacing, m)) as real <= w.width
    requires w.maximized || w.topEdge || TopMarginPixels(host.smallSpacing, m) as real <= borderTop
    ensures RectF(0.0, 0.0, w.width, borderTop).Encloses(UpdateTitleBar(w, host, m, borderTop))
  {
  }
}
